=== FILE: README.md ===
# simulated-traffic, modelled in Dafny

This project models the core of *simulated-traffic*, a generator of synthetic GPS
trajectories. A small population of people is built from residential buildings, workplaces
and free-time places, where the places come from points of interest classified by a category
catalogue. Each person then gets one daily route per simulated day. A day starts at a
random time inside a window of whole hours. It visits home, the workplace on a weekday, one
favourite free-time place, and home again. Each coarse leg of the route is refined by
querying the routing service between consecutive vertices of the decoded geometry, and the
sub-steps are stitched into one time-stamped waypoint list.

The modules follow the source files:

- `Positions`, `Places`, `Routes`, `People` hold the data model. `Workplace`, `DailyRoute`
  and `Person` are classes because the code updates `current_people`, the waypoint list and
  the route list in place.
- `RandomTime` covers the "HH:MM" start-time draw and its reading by `strptime`.
- `Decimal` covers `str()` and `int()` of integers.
- `RoutingService` covers the routing service, which is given as a function parameter.
- `StitchSpec` specifies the refinement loops of `generate_daily_route_for_person` as folds.
  `StitchProperties` proves properties of those folds.
- `DayPlan` covers the weekday or weekend itinerary, the start of day, and the whole stitched
  day.
- `GeneratingRoutes` holds the loops as methods that update a `DailyRoute`. Each is proved
  equal to its fold, and the sequential driver is among them.
- `RouteGenerator` covers `generate_people`.
- `PointsOfInterest` covers the category partition and `parse_pois`.

Random draws are explicit parameters:

- the leisure choice, the extra stay, the work jitter and the start-minute offset, in `DayPlan.Draws`;
- the shuffled orders of buildings, workplaces and free-time places, in `GeneratePeople`.

The ranges the random number generator draws from appear only as preconditions of the lemmas
that need them.

The model follows the code on these points:

- The first (home) waypoint carries the start-of-day timestamp.
- `strptime`'s `%H` rejects hours above 23, so a workplace window ending at hour 24 can make a
  day fail with `ValueError` (`DayPlan.StartAtHourTwentyFourFails`).
- `get_random_time_in_timeframe` raises for an empty window before any draw.
- The group fallback of `parse_pois` searches the group ids in string order, so it takes the
  last group in string order whose number is below the category's. That group is not
  necessarily the numerically nearest. With groups 20 and 100, category 150 falls back to group
  20 (`PointsOfInterest.StringOrderIsNotNumeric`, `PointsOfInterest.FallbackIsNotNumericallyNearest`).

## Model

| member | source | states |
|---|---|---|
| `Wrappers.DivMod` | src/lib/random_time.py:9 | quotient and remainder recombine to the dividend, and the remainder is below the divisor |
| `Decimal.NatToString` | src/lib/random_time.py:16 | `str(n)` is a non-empty digit string without a leading zero; it is one digit below 10 and at least two digits otherwise |
| `Decimal.IntToString` | src/lib/random_time.py:14-16 | `str(n)` of any integer: non-empty, the digit string of `n` when `n` is non-negative, and `-` followed by the digit string of `-n` otherwise |
| `Decimal.ParseInt` | src/lib/points_of_interest.py:116 | `int(s)` succeeds exactly on non-empty digit strings, with a non-negative value |
| `Decimal.ParseNat` | src/lib/generating_routes.py:97-99 | the value of a digit string, most significant digit first; `Decimal.ParseNatToString` shows it inverts `str` and `Decimal.ParseTwoDigits` gives its two-digit case |
| `Decimal.ParseNatToString` | src/lib/random_time.py:16 | reading back the decimal text of `n` gives `n` |
| `Decimal.ParseTwoDigits` | src/lib/random_time.py:13-21 | a two-digit string reads as tens times ten plus units |
| `Positions.MakePosition` | src/models/position.py:5-11 | the position keeps latitude and longitude; it has a timestamp exactly when a time point is given, and then that one |
| `Positions.WithTimestamp` | src/lib/generating_routes.py:190 | assigning the timestamp keeps the coordinates and sets the timestamp |
| `Positions.ToLatLon` | src/models/position.py:22-23 | `to_lat_lon`: the pair (lat, lon), as `Positions.LonLatIsSwappedLatLon` states |
| `Positions.ToLonLat` | src/models/position.py:25-26 | `to_lon_lat`: the swap of `to_lat_lon`, as `Positions.LonLatIsSwappedLatLon` states |
| `Positions.LonLatIsSwappedLatLon` | src/models/position.py:22-26 | `to_lon_lat` is `to_lat_lon` swapped, and `to_lat_lon` is (lat, lon) |
| `Places.SamePlace` | src/models/place.py:22-29 | `__eq__`: the category id, category name, name, latitude and longitude all agree; `Places.SamePlaceIsBaseEquality` proves it reflexive and symmetric |
| `Places.SamePlaceIsBaseEquality` | src/models/place.py:22-29 | `__eq__` holds exactly when the five base fields agree; it is reflexive and symmetric |
| `Places.MakeFreeTimePlace` | src/models/place.py:59-75 | a free-time place keeps the base fields and the typical stay of its record |
| `Places.Workplace.constructor` | src/models/place.py:33-52 | a workplace keeps the base fields, capacity and start window of its record, with nobody assigned |
| `Places.WorkplaceEqualsFreeTimePlace` | src/models/place.py:22-29 | a workplace and a free-time place with the same base fields compare equal both ways |
| `Routes.Close` | src/models/route.py:25 | `math.isclose` on two coordinates in units of 1e-5 degrees, where it holds exactly when they are equal |
| `Routes.RoughlyEqual` | src/models/route.py:25 | both the latitudes and the longitudes are close |
| `Routes.AppendedIsRoughlyEqualToLast` | src/models/route.py:20-25 | right after appending `p`, `p` and any position with its coordinates are roughly equal to the last waypoint |
| `Routes.ExportIsParallel` | src/models/route.py:36-43 | the export has one `[lat, lon]` pair and one time per waypoint, entry `i` from waypoint `i` |
| `Routes.DailyRoute.constructor` | src/models/route.py:8-9 | a new route has no waypoints |
| `Routes.DailyRoute.AddWaypoint` | src/models/route.py:20-21 | the waypoint list grows by exactly the given position at its end |
| `Routes.DailyRoute.IsRoughlyEqualToLastWaypoint` | src/models/route.py:23-25 | the position is roughly equal to the last waypoint; on an empty route (`IndexError` in the code) it is not defined, and the stitcher's fold reports `IndexError` there instead (`StitchSpec.AppendSubStep`) |
| `Routes.DailyRoute.GetWaypoints` | src/models/route.py:27-28 | the waypoint list itself, which `AddWaypoint` extends at the end |
| `Routes.DailyRoute.GetWaypointsAsLatLon` | src/models/route.py:30-31 | one (lat, lon) tuple per waypoint, in order |
| `Routes.DailyRoute.GetWaypointsAsLonLat` | src/models/route.py:33-34 | one (lon, lat) tuple per waypoint, in order |
| `Routes.DailyRoute.LatLonAndLonLatAreSwapped` | src/models/route.py:30-34 | the two tuple views have equal length and each pair is the other swapped |
| `Routes.DailyRoute.ToDict` | src/models/route.py:36-43 | the loop builds `coords` and `times` equal to the export of the waypoints, without a person |
| `Routes.DailyRoute.ToLinestring` | src/models/route.py:46-52 | the kind is "LineString" and the coordinates are the `[lat, lon]` pairs of the waypoints, in order |
| `People.Person.constructor` | src/models/person.py:7-19 | a new person keeps id, home, workplace and favourite places, and has no routes |
| `People.Person.AddRoute` | src/models/person.py:21-22 | the route list grows by exactly the given route at its end |
| `People.Person.GetAllRoutes` | src/models/person.py:24-25 | the route list itself, which `AddRoute` extends at the end |
| `People.Person.GetAllRoutesAsDicts` | src/models/person.py:27-33 | one dictionary per stored route, in order, each the route's export tagged with the person's id |
| `RoutingService.ProfileFor` | src/lib/generating_routes.py:15-18 | the cycling profile is chosen exactly when cycling is asked for, otherwise driving |
| `RoutingService.CalculateDirections` | src/lib/generating_routes.py:12-25 | the service's answer for the coordinates under the profile `RoutingService.ProfileFor` picks |
| `RandomTime.HourMinute` | src/lib/random_time.py:9-11 | the drawn hour and minute recombine to the first hour plus the offset, and the minute is below 60 |
| `RandomTime.HourWithinWindow` | src/lib/random_time.py:7-11 | the drawn hour lies in the window, and it is the closing hour only at minute 0 |
| `RandomTime.Pad` | src/lib/random_time.py:13-21 | a leading `0` below 10, `str` otherwise; `RandomTime.PadTwoDigits` and `RandomTime.PadLong` state its length and value |
| `RandomTime.PadTwoDigits` | src/lib/random_time.py:13-21 | an hour or minute in 0..99 prints as two digits that read back as the number |
| `RandomTime.PadLong` | src/lib/random_time.py:13-16 | a negative or three-digit hour prints with at least three characters |
| `RandomTime.RandomTimeInTimeframe` | src/lib/random_time.py:4-23 | text exactly for a non-empty window; the explicit raise for an empty window; `ValueError` for a reversed one |
| `RandomTime.RandomTimeRoundTrip` | src/lib/random_time.py:9-23 | for windows within 0..99 the text is "HH:MM", and reading HH and MM back gives the first hour plus the offset |
| `RandomTime.ParseClock` | src/lib/generating_routes.py:97-99 | a parsed "%H:%M" is a minute of the day, below 24 hours |
| `RandomTime.ReadDrawnText` | src/lib/generating_routes.py:97-99 | an error from the draw passes through `strptime` unchanged |
| `RandomTime.DrawnClockMinutes` | src/lib/random_time.py:4-23 | a parsed start is the first hour plus the offset, below 24 hours; an empty window gives the explicit raise; every other failure is `ValueError` |
| `RandomTime.ReadBackTwoDigitHour` | src/lib/random_time.py:13-23 | "HH:MM" with a two-digit hour parses exactly when the hour is at most 23 |
| `RandomTime.ReadBackLongHour` | src/lib/random_time.py:13-23 | text with a negative or three-digit hour does not parse |
| `RandomTime.DrawnClockMinutesReadsText` | src/lib/generating_routes.py:93-99 | printing the draw and parsing it back equals the arithmetic start time, on every input |
| `RandomTime.StartTimeParses` | src/lib/random_time.py:4-23 | a window ending by hour 23 yields the drawn minute of the day; a drawn hour of 24 or more fails |
| `StitchSpec.SubStepEndpoint` | src/lib/generating_routes.py:177-181 | the end point swaps the decoded [lon, lat] vertex into a position with no timestamp |
| `StitchSpec.AppendSubStep` | src/lib/generating_routes.py:176-195 | a sub-step fails exactly when its index is outside the geometry or the route is empty |
| `StitchSpec.AppendSubSteps` | src/lib/generating_routes.py:176-195 | the loop over a sub-route's steps, one `AppendSubStep` per step in order, stopping at the first error; `StitchProperties.AppendSubStepsOnlyAppends` and `StitchProperties.AppendSubStepsKeepsInv` state its effect |
| `StitchSpec.VisitIndex` | src/lib/generating_routes.py:131-197 | one index of a coarse step: skipped when it is the accepted one, `IndexError` off the geometry, skipped without a summary, otherwise the sub-steps appended and the index accepted (`StitchProperties.PreviousIndexIsSkipped`, `DegenerateSubRouteIsSkipped`, `AcceptedIndexAdvances`) |
| `StitchSpec.VisitRange` | src/lib/generating_routes.py:130-197 | the indices of a range in ascending order, stopping at the first error; the accepted index stays in the range (`StitchProperties.VisitRangeAcceptsWithin`) |
| `StitchSpec.VisitStep` | src/lib/generating_routes.py:121-197 | a coarse step: nothing for a zero-length step (`StitchProperties.ZeroLengthStepIsSkipped`), else its range with the end index included |
| `StitchSpec.VisitSteps` | src/lib/generating_routes.py:119-197 | the steps of one coarse segment in order, stopping at the first error (`StitchProperties.VisitStepsKeepsInv`) |
| `StitchSpec.AddStay` | src/lib/generating_routes.py:199-200 | the stay after every leg but the last advances the clock by that stay |
| `StitchSpec.VisitLeg` | src/lib/generating_routes.py:114-200 | one leg: `IndexError` for a missing segment, else its steps followed by the stay |
| `StitchSpec.VisitLegs` | src/lib/generating_routes.py:113-200 | the legs in order, stopping at the first error (`StitchProperties.VisitLegsKeepsInv`, `StitchProperties.VisitLegsErrSticky`) |
| `StitchProperties.AppendSubStepEffect` | src/lib/generating_routes.py:176-195 | a sub-step end point is either dropped with route and clock unchanged, or appended stamped with the clock advanced by the step's duration; it is appended exactly when not roughly equal to the last waypoint |
| `StitchProperties.AppendSubStepsOnlyAppends` | src/lib/generating_routes.py:176-195 | over a sub-route the earlier waypoints are kept and only new ones are added at the end; when no step duration is negative, the clock does not go back |
| `StitchProperties.ZeroLengthStepIsSkipped` | src/lib/generating_routes.py:125-127 | a coarse step with equal from and to indices changes nothing |
| `StitchProperties.PreviousIndexIsSkipped` | src/lib/generating_routes.py:131-132 | the previously accepted index is skipped without a query |
| `StitchProperties.DegenerateSubRouteIsSkipped` | src/lib/generating_routes.py:157-172 | a sub-route without summary changes neither route, clock nor accepted index |
| `StitchProperties.AcceptedIndexAdvances` | src/lib/generating_routes.py:174-197 | a sub-route with a summary makes the current index the accepted one and only appends; when the service reports no negative duration, the clock does not go back |
| `StitchProperties.VisitRangeAcceptsWithin` | src/lib/generating_routes.py:130-197 | after a span of indices, the accepted index is the earlier one or one inside the span |
| `StitchProperties.AppendSubStepsKeepsInv` | src/lib/generating_routes.py:176-195 | for a step of non-negative duration, the route stays non-empty, starts at the home waypoint, is stamped from the start on, never goes back in time and has no rough repeats |
| `StitchProperties.VisitStepsKeepsInv` | src/lib/generating_routes.py:119-197 | when the service reports no negative duration, the same invariant holds after all steps of a coarse segment |
| `StitchProperties.VisitLegsKeepsInv` | src/lib/generating_routes.py:111-200 | with non-negative stays and no negative duration from the service, the invariant holds after every leg, and the clock never goes back |
| `StitchProperties.VisitLegsErrSticky` | src/lib/generating_routes.py:113-200 | an error in an early leg is the error of the whole walk, the same error |
| `DayPlan.Weekday` | src/lib/generating_routes.py:53 | a weekday is a number from 0 to 6 |
| `DayPlan.WeekdayIsRemainder` | src/lib/generating_routes.py:53 | the weekday of day `d` counted from 1970-01-01 (a Thursday) is `(d + 3) mod 7` |
| `DayPlan.WeekdayRepeatsWeekly` | src/lib/generating_routes.py:53 | the weekday repeats every seven days; 1970-01-03 is a Saturday, a weekend day, and 1970-01-01 is not |
| `DayPlan.IsWeekend` | src/lib/generating_routes.py:53 | the weekday is Saturday or Sunday, 5 or 6 (`DayPlan.WeekdayIsRemainder` fixes the weekday) |
| `DayPlan.StartWindow` | src/lib/generating_routes.py:74-95 | a weekend day starts between 8 and 18; a weekday starts in the workplace's window |
| `DayPlan.ItineraryFor` | src/lib/generating_routes.py:57-89 | weekend: home, leisure, home with one stay; weekday: home, work, leisure, home with the work stay first; one stay per inner stop |
| `DayPlan.StaysAreNonNegative` | src/lib/generating_routes.py:61-63 | with draws in range and a leisure place whose typical stay is non-negative, every stay is non-negative; a working day lasts at least seven hours |
| `DayPlan.NegativeTypicalStayRewindsClock` | src/lib/generating_routes.py:61-63 | a catalogue typical stay below minus one hour, which the code copies unchecked, makes the leisure stay negative whatever the extra draw |
| `DayPlan.StartOfDayInWindow` | src/lib/generating_routes.py:93-99 | a window inside one day gives a start the drawn minutes after the window opens, between its first and last hour |
| `DayPlan.WeekendStartsBetweenEightAndSix` | src/lib/generating_routes.py:74-75 | a weekend day always starts between 08:00 and 18:00 |
| `DayPlan.StartAtHourTwentyFourFails` | src/lib/generating_routes.py:93-99 | a workplace window closing at 24 can draw "24:00", and the day then fails with `ValueError` |
| `DayPlan.StartOfDay` | src/lib/generating_routes.py:74-99 | midnight of the day plus the drawn start time, or the error of the draw or of `strptime` (`DayPlan.StartOfDayInWindow`, `DayPlan.StartAtHourTwentyFourFails`) |
| `DayPlan.Stitch` | src/lib/generating_routes.py:46-201 | the whole day: the leisure choice, the itinerary, the start of day and the leg fold from the stamped home waypoint; `DayPlan.StitchedRouteIsWellFormed` and `DayPlan.NoFreeTimePlaceFails` state its properties and `GeneratingRoutes.GenerateDailyRouteForPerson` computes it in place |
| `DayPlan.NoFreeTimePlaceFails` | src/lib/generating_routes.py:59 | a person without favourite free-time places cannot be routed (`IndexError`) |
| `DayPlan.StitchedRouteIsWellFormed` | src/lib/generating_routes.py:97-200 | when the service reports no negative step duration and no favourite place has a negative typical stay, a stitched day is non-empty, starts at home stamped with the start of day, and is stamped from then on in non-decreasing order with no rough repeats | when the service reports no negative step duration and no favourite place has a negative typical stay,ating_routes.py:176-195 | the in-place loop over sub-steps computes the sub-step fold: the same waypoints and clock on success, the same error on failure |
| `GeneratingRoutes.ProcessIndex` | src/lib/generating_routes.py:131-197 | the work on one index computes the one-index step of the fold, with the same error on failure |
| `GeneratingRoutes.RefineLeg` | src/lib/generating_routes.py:119-197 | the nested loops over the steps of a segment compute the segment fold, with the same error on failure |
| `GeneratingRoutes.WalkLegs` | src/lib/generating_routes.py:111-200 | the loop over the legs, with the stays between them, computes the leg fold, with the same error on failure |
| `GeneratingRoutes.DrawStartOfDay` | src/lib/generating_routes.py:74-99 | drawing the text and parsing it back gives the start of day of the model |
| `GeneratingRoutes.GenerateDailyRouteForPerson` | src/lib/generating_routes.py:46-201 | a fresh route holding exactly the stitched day, or the error the stitched day raises |
| `GeneratingRoutes.WaypointsOf` | src/lib/generating_routes.py:34-43 | one waypoint list per route, in order |
| `GeneratingRoutes.CollectDaysStep` | src/lib/generating_routes.py:36-43 | a run one day longer adds that day's route at the end |
| `GeneratingRoutes.CollectDaysAt` | src/lib/generating_routes.py:36-43 | a successful run has one route per day, and entry `k` is day `k`'s route |
| `GeneratingRoutes.CollectDaysOk` | src/lib/generating_routes.py:36-43 | when every day succeeds, the run succeeds |
| `GeneratingRoutes.CollectDaysErrSticky` | src/lib/generating_routes.py:36-43 | once a day fails, every longer run fails with the same error |
| `GeneratingRoutes.CollectedDaysAreStitched` | src/lib/generating_routes.py:35-43 | entry `k` of a successful run is the stitched day `start + k` |
| `GeneratingRoutes.RouteOneDay` | src/lib/generating_routes.py:37-40 | a successful day appends exactly its stitched route to the person's routes; a failed day changes nothing and fails with the stitched day's error |
| `GeneratingRoutes.RouteAllDays` | src/lib/generating_routes.py:35-43 | the person ends with the routes they had, followed by one stitched route per consecutive day, in date order; on failure some day fails with its stitching error, and the person keeps the routes of the days before it |
| `GeneratingRoutes.GenerateDailyRoutesSequentially` | src/lib/generating_routes.py:28-43 | on success every person has gained one stitched route per day; on failure the people before some person have all their days, that person keeps the days before its failing day, whose stitching error is returned, and the people after it are unchanged |
| `RouteGenerator.OtherPlaces` | src/route_generator.py:133-134 | filtering keeps at most as many places as offered, and every kept place was offered and is not the workplace |
| `RouteGenerator.OtherPlacesMembers` | src/route_generator.py:133-134 | the kept places are exactly the offered places that are not `==` to the workplace |
| `RouteGenerator.OtherPlacesOfPrefix` | src/route_generator.py:133-138 | filtering a prefix of the places gives a prefix of the filtered places |
| `RouteGenerator.ChosenPlaces` | src/route_generator.py:131-138 | the first two places that are not the workplace, or all of them when fewer (`RouteGenerator.ChosenPlacesProperties`) |
| `RouteGenerator.ChosenPlacesProperties` | src/route_generator.py:131-138 | at most two places, none equal to the workplace, the first ones in list order; fewer than two only when every other place was taken |
| `RouteGenerator.ChosenStopsAtLimit` | src/route_generator.py:133-138 | once two places are kept, the next place that is not the workplace ends the choice with those two |
| `RouteGenerator.ChooseFreeTimePlaces` | src/route_generator.py:131-138 | the loop with its early exit picks exactly the first two other places |
| `RouteGenerator.ChooseWorkplace` | src/route_generator.py:118-129 | the first workplace with spare capacity gains exactly one person and nothing else changes; when there is none, all are full and nothing changes |
| `RouteGenerator.Assigned` | src/route_generator.py:123 | no workplace counts more people than there are, and a workplace counts none exactly when nobody works there |
| `RouteGenerator.AssignedSumIsCount` | src/route_generator.py:118-148 | over distinct workplaces that everyone works at, the counts add up to the number of people |
| `RouteGenerator.PlacePerson` | src/route_generator.py:113-146 | a fresh person with the given id and home, and the first workplace in the shuffled order that had spare capacity, which gains exactly one; the chosen places; with no capacity left, no person and no change |
| `RouteGenerator.PlaceNextPerson` | src/route_generator.py:113-148 | placing the next person keeps every earlier placement and adds one person whose workplace is the first with capacity in that person's order, given the loads before them; with no capacity left, every workplace is full |
| `RouteGenerator.FirstOpenForEachStep` | src/route_generator.py:118-124 | the first-with-capacity choice of earlier people stays recorded when one more person is placed |
| `RouteGenerator.LoadsBeforeEachStep` | src/route_generator.py:118-124 | the load each person saw is the starting load plus the people placed before them, one more person included |
| `RouteGenerator.GeneratePeople` | src/route_generator.py:103-149 | at most ten people, one per building in shuffled order, with ids 0, 1, 2, …; each person works at the first workplace of their shuffled order whose load, the starting load plus the earlier people placed there, was below capacity; each workplace gains exactly the people assigned to it, and the gains add up to the number of people; an assigned workplace stays within capacity; it stops early only when all workplaces are full |
| `PointsOfInterest.Lookup` | src/lib/points_of_interest.py:111 | `get` finds a record exactly when the key is present, and the record is one stored under that key |
| `PointsOfInterest.KeysWhere` | src/lib/points_of_interest.py:32-42 | the keys kept are exactly those whose `IsGroupID` flag matches |
| `PointsOfInterest.CategoryPartition` | src/lib/points_of_interest.py:32-42 | every key lands in the list its flag picks; the two lists hold one entry per key between them and are disjoint |
| `PointsOfInterest.IdsOfInterest` | src/lib/points_of_interest.py:32-42 | `int()` of the catalogue keys whose `IsGroupID` flag is the one asked for, in catalogue order (`PointsOfInterest.IdsOfInterestCoverCatalogue`) |
| `PointsOfInterest.ParseIds` | src/lib/points_of_interest.py:32-42 | the ids parse exactly when every key is a digit string, each id being its key's value; otherwise `ValueError` |
| `PointsOfInterest.IdsOfInterestCoverCatalogue` | src/lib/points_of_interest.py:32-42 | the two id lists hold one id per catalogue key between them, each in the list its flag picks |
| `PointsOfInterest.CollectGroupKeys` | src/lib/points_of_interest.py:90-93 | the loop collects exactly the group keys, in catalogue order |
| `PointsOfInterest.StrLeTotal` | src/lib/points_of_interest.py:94 | any two strings are ordered one way or the other |
| `PointsOfInterest.Insert` | src/lib/points_of_interest.py:94 | inserting adds one element, which is either first or follows the old first |
| `PointsOfInterest.InsertKeepsSorted` | src/lib/points_of_interest.py:94 | inserting into a sorted list keeps it sorted |
| `PointsOfInterest.InsertAddsOne` | src/lib/points_of_interest.py:94 | inserting adds exactly the new element to the multiset |
| `PointsOfInterest.SortStrings` | src/lib/points_of_interest.py:94 | `sorted` on strings, by insertion (`PointsOfInterest.SortStringsSorts`, `PointsOfInterest.SortStringsPermutes`) |
| `PointsOfInterest.SortStringsSorts` | src/lib/points_of_interest.py:94 | `sorted` returns an ascending list in string order |
| `PointsOfInterest.SortStringsPermutes` | src/lib/points_of_interest.py:94 | `sorted` returns the same keys, each as often |
| `PointsOfInterest.StringOrderIsNotNumeric` | src/lib/points_of_interest.py:94 | "100" sorts before "20" |
| `PointsOfInterest.FallbackIsNotNumericallyNearest` | src/lib/points_of_interest.py:111-117 | with groups "20" and "100", category "150" falls back to group "20", not to the numerically nearer 100 |
| `PointsOfInterest.LastLowerGroup` | src/lib/points_of_interest.py:113-117 | the search succeeds exactly when there are no groups, or the category key and every group key are digit strings; it fails only with `ValueError` |
| `PointsOfInterest.LastLowerGroupIsLastLower` | src/lib/points_of_interest.py:113-117 | the fallback group is below the category, and no later group in the list is; with no fallback, no group is below it |
| `PointsOfInterest.FindFallbackGroup` | src/lib/points_of_interest.py:114-117 | the loop computes the fallback search, errors included |
| `PointsOfInterest.ErrSticksToLongerGroups` | src/lib/points_of_interest.py:115-117 | a parse failure among the first groups fails the whole search |
| `PointsOfInterest.RelatedInfo` | src/lib/points_of_interest.py:111-118 | a known category uses its own record; an unknown one without a lower group raises `KeyError`; otherwise it uses the fallback group's record |
| `PointsOfInterest.FallbackRecordExists` | src/lib/points_of_interest.py:90-118 | a fallback found among the catalogue's group keys has a record, and that record is a group record |
| `PointsOfInterest.ParseFeature` | src/lib/points_of_interest.py:100-108 | no category ids: `IndexError`; no category name: `KeyError`; fewer than two coordinates: `IndexError` |
| `PointsOfInterest.ParseFeatureFields` | src/lib/points_of_interest.py:100-143 | a workplace exactly when the record has work information, and a free-time place exactly when it has free-time information; the int category id, category name, name (or ""), latitude `coordinates[1]` and longitude `coordinates[0]` come from the feature |
| `PointsOfInterest.KnownCategorySkipsFallback` | src/lib/points_of_interest.py:111-118 | a category with its own record does not depend on the group list |
| `PointsOfInterest.UnknownCategoryWithoutLowerGroupFails` | src/lib/points_of_interest.py:114-118 | an unknown category with no lower group raises `KeyError` |
| `PointsOfInterest.ClassifyFeature` | src/lib/points_of_interest.py:100-143 | the body of the feature loop computes the per-feature outcome, errors included |
| `PointsOfInterest.ParseAll` | src/lib/points_of_interest.py:96-145 | at most one workplace and one free-time place per feature |
| `PointsOfInterest.ParseAllOkIffEachFeature` | src/lib/points_of_interest.py:99-143 | parsing succeeds exactly when every feature parses |
| `PointsOfInterest.ParseAllKeepsOrder` | src/lib/points_of_interest.py:99-143 | the lists for a prefix of the features are prefixes of the full lists |
| `PointsOfInterest.ParseAllEntriesComeFromFeatures` | src/lib/points_of_interest.py:123-143 | every workplace and free-time place in the result is the outcome of some feature |
| `PointsOfInterest.ParseAllStep` | src/lib/points_of_interest.py:99-143 | one more feature appends its outcome, or its error ends the parse |
| `PointsOfInterest.AddWorkplace` | src/lib/points_of_interest.py:123-132 | a feature with work information adds one fresh workplace built from it, and the workplaces stay pairwise distinct |
| `PointsOfInterest.ParsePois` | src/lib/points_of_interest.py:89-145 | succeeds exactly when the fold does; the workplaces are fresh, pairwise distinct and built from the fold's records in order, and the free-time places are the fold's |

## Left out

- Parallel orchestration (`generate_all_daily_routes_for_person_parallel`, `generate_daily_routes_parallel`): processes, queues and pipes are not modelled. The sequential driver carries the per-person day-count guarantee.
- The routing service client and polyline decoding are a function parameter that returns decoded geometry, segments of steps and whether a summary is present. Only the first route of an answer is modelled.
- Floating point: coordinates are integers in units of 1e-5 degrees. `math.isclose` is exact equality on them. Durations and stays are whole seconds, and `TypicalStayDurationHours` is kept in seconds, as an integer of either sign.
- `datetime`, `timedelta` and time zones: a date is a day number from 1970-01-01, midnight is the day number times 86400, and clocks are epoch seconds.
- `random`: `choice`, `uniform`, `randint` and `shuffle` are explicit parameters. The in-place reordering of the caller's building, workplace and free-time lists by `shuffle` is not modelled.
- `get_all_pois`: the HTTP request and the geodesic corners of the query polygon are not modelled. Only its category-id partition is.
- `__str__`/`__repr__`, `print`, `tqdm`, file output and `main` are not modelled.
- `RouteGenerator.GeneratePeople`: the per-building inner loop runs once (`PEOPLE_PER_RESIDENTIAL_BUILDING` is 1), so the model takes one person per building.
- `RouteGenerator.GeneratePeople`: Python truthiness of `chosen_workplace` is not modelled. A workplace object is always truthy, so "no workplace" is the only case that returns early.
- `PointsOfInterest.ParseFeature`: only the keys the code reads are modelled. Missing `properties`, `geometry` or `features` keys and a catalogue record missing `WorkInfo` are not modelled. A falsy (null or empty) `WorkInfo` or `FreeTimeActivityInfo` is modelled as absent. An empty catalogue record is not modelled.
- `Decimal.ParseInt`: `int()` is modelled on plain digit strings only. Signs, whitespace and underscores are treated as errors.
- `RandomTime.RandomTimeInTimeframe`: the raise for an empty window (a plain string, which Python rejects with `TypeError`) is modelled as its own error kind.
- `RandomTime.ParseClock`: `strptime` is modelled on "HH:MM" with exactly two-digit fields, which is all the draw produces for windows inside one day.
- `GeneratingRoutes.GenerateDailyRoutesSequentially`: the people must be distinct objects, as the generated people are.
- `RouteGenerator.GeneratePeople`: the workplaces must be distinct objects, as the parsed workplaces are (`PointsOfInterest.ParsePois` proves them pairwise distinct).
- `DayPlan.StitchedRouteIsWellFormed`: the catalogue's `TypicalStayDurationHours` is copied without a check (src/models/place.py:75), and a negative one can move the clock back (`DayPlan.NegativeTypicalStayRewindsClock`). The lemma therefore requires every favourite place's typical stay to be non-negative (`DayPlan.NonNegativeTypicalStays`) and promises nothing about timestamps otherwise. `DayPlan.StaysAreNonNegative` requires the same of the leisure place.
- `RoutingService.Step`: `way_points` indices are natural numbers. A negative index, which Python reads from the end of the list, is not modelled. Durations are integers, and the well-formedness lemmas (`DayPlan.StitchedRouteIsWellFormed`, `StitchProperties.VisitLegsKeepsInv` and the lemmas under them) take non-negative step durations as a precondition.
- `RoutingService.CalculateDirections`: an answer with an empty `"routes"` list, which raises `IndexError` at src/lib/generating_routes.py:106 and :151, is not modelled. The service always returns one route.
- `RoutingService.CalculateDirections`: a sub-route summary without a `"duration"` key, which raises `KeyError` at src/lib/generating_routes.py:174, is not modelled. The summary is only a present-or-absent flag.

=== FILE: day_plan.dfy ===
/** The day-level part of `generate_daily_route_for_person` (src/lib/generating_routes.py):
    the weekday/weekend itinerary, the start-of-day clock, and the whole stitched day as a function
    of the person, the date, the random draws and the routing service. */
module DayPlan {
  import opened Wrappers
  import opened Positions
  import opened Places
  import opened People
  import opened RandomTime
  import opened RoutingService
  import opened StitchSpec
  import opened StitchProperties

  const SecondsPerDay := 86400
  const SecondsPerHour := 3600
  /** The broad window a weekend day starts in. */
  const WeekendFromHour := 8
  const WeekendToHour := 18
  /** The nominal working day, varied by up to an hour either way. */
  const WorkStaySeconds := 8 * SecondsPerHour

  /** A date is a day number counted from 1970-01-01, a Thursday; `weekday()` numbers Monday as 0.
      Counted a week at a time from that Thursday, so that the solver unrolls it only on demand. */
  function Weekday(day: int): (w: nat)
    ensures w < 7
    decreases if day + 3 < 0 then 7 - (day + 3) else day + 3
  {
    if day + 3 >= 7 then Weekday(day - 7)
    else if day + 3 < 0 then Weekday(day + 7)
    else day + 3
  }

  /** The week-at-a-time count is the remainder of the day number (shifted to Monday) modulo 7. */
  lemma {:induction false} WeekdayIsRemainder(day: int)
    ensures Weekday(day) == (day + 3) % 7
    decreases if day + 3 < 0 then 7 - (day + 3) else day + 3
  {
    if day + 3 >= 7 {
      WeekdayIsRemainder(day - 7);
    } else if day + 3 < 0 {
      WeekdayIsRemainder(day + 7);
    }
  }

  /** Seven days on, the weekday repeats; 1970-01-03 (day 2) was a Saturday. */
  lemma WeekdayRepeatsWeekly(day: int)
    ensures Weekday(day + 7) == Weekday(day)
    ensures Weekday(2) == 5 && IsWeekend(2) && !IsWeekend(0)
  {
    WeekdayIsRemainder(day);
    WeekdayIsRemainder(day + 7);
  }

  predicate IsWeekend(day: int)
  {
    Weekday(day) >= 5
  }

  /** Midnight of the date, in epoch seconds (time zones are not modelled). */
  function MidnightEpoch(day: int): int
  {
    day * SecondsPerDay
  }

  /** The random values one stitched day consumes: `random.choice` of the leisure place,
      `random.uniform(0, 1)` hours added to its stay, `random.uniform(-1, 1)` hours added to the
      working day, and the minute offset of the start time; durations in whole seconds. */
  datatype Draws = Draws(leisureChoice: nat, freeExtraSeconds: int, workJitterSeconds: int, startOffsetMinutes: nat)

  /** The window the start time is drawn from: the workplace's on a weekday, 08..18 on a weekend. */
  function StartWindow(person: Person, day: int): (w: (int, int))
    ensures IsWeekend(day) ==> w == (WeekendFromHour, WeekendToHour)
    ensures !IsWeekend(day) ==> w == (person.workplace.startTimeFrom, person.workplace.startTimeTo)
  {
    if IsWeekend(day) then (WeekendFromHour, WeekendToHour)
    else (person.workplace.startTimeFrom, person.workplace.startTimeTo)
  }

  /** The ranges the random number generator draws from. */
  predicate ValidDraws(person: Person, day: int, d: Draws)
  {
    && (|person.favoriteFreeTimePlaces| > 0 ==> d.leisureChoice < |person.favoriteFreeTimePlaces|)
    && 0 <= d.freeExtraSeconds <= SecondsPerHour
    && -SecondsPerHour <= d.workJitterSeconds <= SecondsPerHour
    && ValidOffset(StartWindow(person, day).0, StartWindow(person, day).1, d.startOffsetMinutes)
  }

  /** The coarse itinerary as (lon, lat) anchors, and the stay after each inner anchor. */
  datatype Itinerary = Itinerary(anchors: seq<LonLat>, stays: seq<int>)

  function HomeAnchor(person: Person): LonLat
  {
    LonLat(person.homeLocation.lon, person.homeLocation.lat)
  }

  function PlaceAnchor(base: PlaceBase): LonLat
  {
    LonLat(base.longitude, base.latitude)
  }

  /** Weekend: home, leisure, home with one stay. Weekday: home, work, leisure, home with two.
      Either way there is one stay per inner anchor, in anchor order. */
  function ItineraryFor(person: Person, day: int, leisure: FreeTimePlace, d: Draws): (it: Itinerary)
    ensures |it.anchors| == (if IsWeekend(day) then 3 else 4)
    ensures |it.stays| == |it.anchors| - 2
    ensures it.anchors[0] == HomeAnchor(person) && it.anchors[|it.anchors| - 1] == HomeAnchor(person)
    ensures it.anchors[|it.anchors| - 2] == PlaceAnchor(leisure.base)
    ensures it.stays[|it.stays| - 1] == leisure.typicalStaySeconds + d.freeExtraSeconds
    ensures !IsWeekend(day) ==>
      it.anchors[1] == PlaceAnchor(person.workplace.base) && it.stays[0] == WorkStaySeconds + d.workJitterSeconds
  {
    var freeTimeStay := leisure.typicalStaySeconds + d.freeExtraSeconds;
    if IsWeekend(day) then
      Itinerary([HomeAnchor(person), PlaceAnchor(leisure.base), HomeAnchor(person)], [freeTimeStay])
    else
      Itinerary([HomeAnchor(person), PlaceAnchor(person.workplace.base), PlaceAnchor(leisure.base), HomeAnchor(person)],
                [WorkStaySeconds + d.workJitterSeconds, freeTimeStay])
  }

  /** Every favourite free-time place has a non-negative typical stay. The catalogue's
      `TypicalStayDurationHours` is copied without a check, so this is not guaranteed. */
  predicate NonNegativeTypicalStays(person: Person)
  {
    forall i :: 0 <= i < |person.favoriteFreeTimePlaces| ==> person.favoriteFreeTimePlaces[i].typicalStaySeconds >= 0
  }

  /** With draws in range and a non-negative typical stay every stay is non-negative (a working
      day lasts at least seven hours whatever the leisure place). */
  lemma StaysAreNonNegative(person: Person, day: int, leisure: FreeTimePlace, d: Draws)
    requires ValidDraws(person, day, d)
    requires leisure.typicalStaySeconds >= 0
    ensures forall i :: 0 <= i < |ItineraryFor(person, day, leisure, d).stays| ==>
      ItineraryFor(person, day, leisure, d).stays[i] >= 0
    ensures !IsWeekend(day) ==> ItineraryFor(person, day, leisure, d).stays[0] >= 7 * SecondsPerHour
  {
  }

  /** A typical stay below minus one hour makes the stay at the leisure place negative whatever
      the extra draw, so the clock moves back before the leg home. */
  lemma NegativeTypicalStayRewindsClock(person: Person, day: int, leisure: FreeTimePlace, d: Draws)
    requires ValidDraws(person, day, d)
    requires leisure.typicalStaySeconds < -SecondsPerHour
    ensures var stays := ItineraryFor(person, day, leisure, d).stays;
      |stays| > 0 && stays[|stays| - 1] < 0
  {
  }

  /** `strptime(f"{date} {HH:MM}")`: midnight of the date plus the drawn start time, the text
      step replaced by its arithmetic meaning (`DrawnClockMinutesReadsText`). */
  function StartOfDay(person: Person, day: int, d: Draws): Result<int>
  {
    var (fromHour, toHour) := StartWindow(person, day);
    match DrawnClockMinutes(fromHour, toHour, d.startOffsetMinutes)
    case Err(e) => Err(e)
    case Ok(minutes) => Ok(MidnightEpoch(day) + minutes * 60)
  }

  /** A window inside one day yields a start exactly the drawn number of minutes after its first
      hour, so never before the window opens nor after it closes. */
  lemma StartOfDayInWindow(person: Person, day: int, d: Draws)
    requires ValidDraws(person, day, d)
    requires 0 <= StartWindow(person, day).0 < StartWindow(person, day).1 <= 23
    ensures StartOfDay(person, day, d).Ok?
    ensures StartOfDay(person, day, d).value
      == MidnightEpoch(day) + (StartWindow(person, day).0 * 60 + d.startOffsetMinutes) * 60
    ensures MidnightEpoch(day) + StartWindow(person, day).0 * SecondsPerHour
      <= StartOfDay(person, day, d).value
      <= MidnightEpoch(day) + StartWindow(person, day).1 * SecondsPerHour
  {
    var (fromHour, toHour) := StartWindow(person, day);
    StartTimeParses(fromHour, toHour, d.startOffsetMinutes);
  }

  /** A weekend day always gets a start time between 08:00 and 18:00. */
  lemma WeekendStartsBetweenEightAndSix(person: Person, day: int, d: Draws)
    requires ValidDraws(person, day, d) && IsWeekend(day)
    ensures StartOfDay(person, day, d).Ok?
    ensures MidnightEpoch(day) + 8 * SecondsPerHour <= StartOfDay(person, day, d).value
      <= MidnightEpoch(day) + 18 * SecondsPerHour
  {
    StartOfDayInWindow(person, day, d);
  }

  /** A workplace window that reaches hour 24 can draw "24:00", which `strptime` rejects. */
  lemma StartAtHourTwentyFourFails(person: Person, day: int, d: Draws)
    requires ValidDraws(person, day, d) && !IsWeekend(day)
    requires 0 <= person.workplace.startTimeFrom < person.workplace.startTimeTo == 24
    requires d.startOffsetMinutes == (24 - person.workplace.startTimeFrom) * 60
    ensures StartOfDay(person, day, d) == Err(ValueError)
  {
    var fromHour := person.workplace.startTimeFrom;
    StartTimeParses(fromHour, 24, d.startOffsetMinutes);
    assert HourMinute(fromHour, d.startOffsetMinutes).0 == 24;
  }

  /** The first waypoint: the home location, stamped with the start-of-day clock. */
  function HomeWaypoint(person: Person, start: int): Position
  {
    MakePosition(person.homeLocation.lat, person.homeLocation.lon, Some(start))
  }

  /** The whole stitched day, or the error the code raises. */
  function Stitch(person: Person, day: int, d: Draws, router: Router): Result<seq<Position>>
  {
    if d.leisureChoice >= |person.favoriteFreeTimePlaces| then Err(IndexError)
    else
      var it := ItineraryFor(person, day, person.favoriteFreeTimePlaces[d.leisureChoice], d);
      match StartOfDay(person, day, d)
      case Err(e) => Err(e)
      case Ok(start) =>
        var coarse := CalculateDirections(router, it.anchors, false);
        var numLegs := |it.anchors| - 1;
        match VisitLegs(Walk([HomeWaypoint(person, start)], 0, start), coarse, it.stays, numLegs, numLegs, router)
        case Err(e) => Err(e)
        case Ok(w) => Ok(w.waypoints)
  }

  /** A person without favourite free-time places cannot be routed (`random.choice` of an empty list). */
  lemma NoFreeTimePlaceFails(person: Person, day: int, d: Draws, router: Router)
    requires |person.favoriteFreeTimePlaces| == 0
    ensures Stitch(person, day, d, router) == Err(IndexError)
  {
  }

  /** A stitched day is never empty, starts at home stamped with the start-of-day clock, has
      timestamps that never decrease nor fall before that clock, and no waypoint roughly equal
      to its predecessor, provided the service reports no negative step duration and no favourite
      place has a negative typical stay. */
  lemma StitchedRouteIsWellFormed(person: Person, day: int, d: Draws, router: Router)
    requires ValidDraws(person, day, d)
    requires NonNegativeTypicalStays(person)
    requires NonNegativeDurations(router)
    requires Stitch(person, day, d, router).Ok?
    ensures StartOfDay(person, day, d).Ok?
    ensures var ws := Stitch(person, day, d, router).value;
      var start := StartOfDay(person, day, d).value;
      && |ws| > 0
      && ws[0] == HomeWaypoint(person, start)
      && ws[0].lat == person.homeLocation.lat && ws[0].lon == person.homeLocation.lon
      && StampedFrom(ws, start)
      && NonDecreasingTimes(ws)
      && NoRoughRepeats(ws)
  {
    var leisure := person.favoriteFreeTimePlaces[d.leisureChoice];
    var it := ItineraryFor(person, day, leisure, d);
    var start := StartOfDay(person, day, d).value;
    var home := HomeWaypoint(person, start);
    var numLegs := |it.anchors| - 1;
    var coarse := CalculateDirections(router, it.anchors, false);
    StaysAreNonNegative(person, day, leisure, d);
    assert PathInv([home], start, home, start);
    VisitLegsKeepsInv(Walk([home], 0, start), coarse, it.stays, numLegs, numLegs, router, home, start);
  }
}

=== FILE: decimal.dfy ===
/** Decimal text of integers: Python's `str(n)` and `int(s)` restricted to plain digit strings. */
module Decimal {
  import opened Wrappers

  predicate IsDigit(c: char)
  {
    '0' <= c <= '9'
  }

  predicate AllDigits(s: string)
  {
    forall i :: 0 <= i < |s| ==> IsDigit(s[i])
  }

  function DigitChar(d: nat): (c: char)
    requires d < 10
    ensures IsDigit(c)
  {
    ['0', '1', '2', '3', '4', '5', '6', '7', '8', '9'][d]
  }

  function DigitValue(c: char): (d: nat)
    requires IsDigit(c)
    ensures d < 10
  {
    (c as int - '0' as int) as nat
  }

  lemma DigitValueOfChar(d: nat)
    requires d < 10
    ensures DigitValue(DigitChar(d)) == d
  {
  }

  /** `str(n)` for a non-negative `n`: most significant digit first, no leading zeros. */
  function NatToString(n: nat): (s: string)
    ensures |s| >= 1 && AllDigits(s)
    ensures n < 10 ==> s == [DigitChar(n)]
    ensures n >= 10 ==> |s| >= 2
    ensures n >= 1 ==> s[0] != '0'
    decreases n
  {
    if n < 10 then [DigitChar(n)] else NatToString(n / 10) + [DigitChar(n % 10)]
  }

  /** `str(n)` for any integer. */
  function IntToString(n: int): (s: string)
    ensures |s| >= 1
    ensures n >= 0 ==> s == NatToString(n)
    ensures n < 0 ==> s == "-" + NatToString(-n)
  {
    if n < 0 then "-" + NatToString(-n) else NatToString(n)
  }

  /** The value of a digit string, read most significant digit first. */
  function ParseNat(s: string): nat
    requires AllDigits(s)
    decreases |s|
  {
    if |s| == 0 then 0 else ParseNat(s[..|s| - 1]) * 10 + DigitValue(s[|s| - 1])
  }

  /** `int(s)` on the strings the model feeds it: a non-empty run of digits; anything else raises. */
  function ParseInt(s: string): (r: Option<int>)
    ensures r.Some? <==> |s| > 0 && AllDigits(s)
    ensures r.Some? ==> r.value >= 0
  {
    if |s| > 0 && AllDigits(s) then Some(ParseNat(s)) else None
  }

  /** Reading back the decimal text of `n` gives `n`. */
  lemma {:induction false} ParseNatToString(n: nat)
    ensures ParseNat(NatToString(n)) == n
    decreases n
  {
    if n < 10 {
      DigitValueOfChar(n);
    } else {
      var s := NatToString(n / 10) + [DigitChar(n % 10)];
      assert s[..|s| - 1] == NatToString(n / 10);
      ParseNatToString(n / 10);
      DigitValueOfChar(n % 10);
    }
  }

  /** A two-character digit string is read as tens and units. */
  lemma ParseTwoDigits(s: string)
    requires |s| == 2 && AllDigits(s)
    ensures ParseNat(s) == DigitValue(s[0]) * 10 + DigitValue(s[1])
  {
    assert s[..|s| - 1] == [s[0]];
    assert [s[0]][..0] == [];
    assert ParseNat([s[0]]) == DigitValue(s[0]);
  }
}

=== FILE: generating_routes.dfy ===
/** src/lib/generating_routes.py: the stitching loops and the sequential driver, as methods that
    update a `DailyRoute` in place and are proved to compute the functions of StitchSpec and DayPlan. */
module GeneratingRoutes {
  import opened Wrappers
  import opened Positions
  import opened Routes
  import opened People
  import opened RoutingService
  import opened StitchSpec
  import opened StitchProperties
  import opened RandomTime
  import opened DayPlan

  /** The loop over the steps of a sub-route: append each step's end point unless it is roughly
      equal to the last waypoint, advancing the clock by the step's duration when it is appended. */
  method AppendSubRoute(route: DailyRoute, clock: int, geom: seq<LonLat>, steps: seq<Step>) returns (r: Result<int>)
    modifies route
    ensures var spec := AppendSubSteps(old(route.waypoints), clock, geom, steps);
      && (r.Ok? <==> spec.Ok?)
      && (r.Ok? ==> spec.value == (route.waypoints, r.value))
      && (r.Err? ==> spec == Err(r.error))
  {
    ghost var w0 := route.waypoints;
    var now := clock;
    var i := 0;
    while i < |steps|
      invariant 0 <= i <= |steps|
      invariant AppendSubSteps(w0, clock, geom, steps[..i]) == Ok((route.waypoints, now))
    {
      assert steps[..i + 1][..i] == steps[..i];
      var step := steps[i];
      if step.toIdx >= |geom| || |route.waypoints| == 0 {
        AppendSubStepsErrSticky(w0, clock, geom, steps, i + 1);
        return Err(IndexError);
      }
      var waypointPos := MakePosition(geom[step.toIdx].lat, geom[step.toIdx].lon, None);
      if !route.IsRoughlyEqualToLastWaypoint(waypointPos) {
        now := now + step.duration;
        waypointPos := WithTimestamp(waypointPos, now);
        route.AddWaypoint(waypointPos);
      }
      i := i + 1;
    }
    assert steps[..i] == steps;
    r := Ok(now);
  }

  /** One index of a coarse step: skip it if it is the accepted one, else query the service
      between the accepted vertex and this one; a route without summary is skipped, otherwise its
      steps are appended and this index becomes the accepted one. */
  method ProcessIndex(route: DailyRoute, prev: nat, clock: int, cur: nat, geom: seq<LonLat>, router: Router)
    returns (r: Result<(nat, int)>)
    modifies route
    ensures var spec := VisitIndex(Walk(old(route.waypoints), prev, clock), cur, geom, router);
      && (r.Ok? <==> spec.Ok?)
      && (r.Ok? ==> spec.value == Walk(route.waypoints, r.value.0, r.value.1))
      && (r.Err? ==> spec == Err(r.error))
  {
    if cur == prev {
      return Ok((prev, clock));
    }
    if cur >= |geom| || prev >= |geom| {
      return Err(IndexError);
    }
    var subRoute := CalculateDirections(router, [geom[prev], geom[cur]], false);
    if |subRoute.segments| == 0 {
      return Err(IndexError);
    }
    if !subRoute.hasSummary {
      return Ok((prev, clock));
    }
    var appended := AppendSubRoute(route, clock, subRoute.geometry, subRoute.segments[0]);
    if appended.Err? {
      return Err(appended.error);
    }
    r := Ok((cur, appended.value));
  }

  /** The steps of one coarse segment, each index of each non-zero-length step in ascending order. */
  method RefineLeg(route: DailyRoute, prev: nat, clock: int, steps: seq<Step>, geom: seq<LonLat>, router: Router)
    returns (r: Result<(nat, int)>)
    modifies route
    ensures var spec := VisitSteps(Walk(old(route.waypoints), prev, clock), steps, geom, router);
      && (r.Ok? <==> spec.Ok?)
      && (r.Ok? ==> spec.value == Walk(route.waypoints, r.value.0, r.value.1))
      && (r.Err? ==> spec == Err(r.error))
  {
    ghost var st0 := Walk(route.waypoints, prev, clock);
    var previousIndex, now := prev, clock;
    var j := 0;
    while j < |steps|
      invariant 0 <= j <= |steps|
      invariant VisitSteps(st0, steps[..j], geom, router) == Ok(Walk(route.waypoints, previousIndex, now))
    {
      assert steps[..j + 1][..j] == steps[..j];
      var step := steps[j];
      if step.fromIdx != step.toIdx {
        ghost var stepStart := Walk(route.waypoints, previousIndex, now);
        var cur := step.fromIdx;
        while cur < step.toIdx + 1
          invariant step.fromIdx <= cur && (cur <= step.toIdx + 1 || cur == step.fromIdx)
          invariant VisitRange(stepStart, step.fromIdx, cur, geom, router) == Ok(Walk(route.waypoints, previousIndex, now))
        {
          var visited := ProcessIndex(route, previousIndex, now, cur, geom, router);
          if visited.Err? {
            VisitRangeErrSticky(stepStart, step.fromIdx, cur + 1, step.toIdx + 1, geom, router);
            VisitStepsErrSticky(st0, steps, j + 1, geom, router);
            return Err(visited.error);
          }
          previousIndex, now := visited.value.0, visited.value.1;
          cur := cur + 1;
        }
        assert VisitRange(stepStart, step.fromIdx, step.toIdx + 1, geom, router) == Ok(Walk(route.waypoints, previousIndex, now));
      }
      j := j + 1;
    }
    assert steps[..j] == steps;
    r := Ok((previousIndex, now));
  }

  /** The loop over the legs of the coarse route, adding the stay after every leg but the last. */
  method WalkLegs(route: DailyRoute, prev: nat, clock: int, coarse: Directions, stays: seq<int>, numLegs: nat, router: Router)
    returns (r: Result<(nat, int)>)
    requires |stays| + 1 >= numLegs
    modifies route
    ensures var spec := VisitLegs(Walk(old(route.waypoints), prev, clock), coarse, stays, numLegs, numLegs, router);
      && (r.Ok? <==> spec.Ok?)
      && (r.Ok? ==> spec.value == Walk(route.waypoints, r.value.0, r.value.1))
      && (r.Err? ==> spec == Err(r.error))
  {
    ghost var st0 := Walk(route.waypoints, prev, clock);
    var previousIndex, now := prev, clock;
    var legIndex := 0;
    while legIndex < numLegs
      invariant 0 <= legIndex <= numLegs
      invariant VisitLegs(st0, coarse, stays, numLegs, legIndex, router) == Ok(Walk(route.waypoints, previousIndex, now))
    {
      if legIndex >= |coarse.segments| {
        VisitLegsErrSticky(st0, coarse, stays, numLegs, legIndex + 1, numLegs, router);
        return Err(IndexError);
      }
      ghost var legStart := Walk(route.waypoints, previousIndex, now);
      var refined := RefineLeg(route, previousIndex, now, coarse.segments[legIndex], coarse.geometry, router);
      if refined.Err? {
        assert VisitLeg(legStart, coarse, stays, numLegs, legIndex, router).Err?;
        VisitLegsErrSticky(st0, coarse, stays, numLegs, legIndex + 1, numLegs, router);
        return Err(refined.error);
      }
      previousIndex, now := refined.value.0, refined.value.1;
      // The last leg ends the day at home: no stay after it.
      if legIndex < numLegs - 1 {
        now := now + stays[legIndex];
      }
      legIndex := legIndex + 1;
    }
    r := Ok((previousIndex, now));
  }

  /** The start of the day as the code obtains it: draw "HH:MM" in the day's window, then read
      the date and that text back with `strptime`. */
  method DrawStartOfDay(person: Person, day: int, d: Draws) returns (r: Result<int>)
    ensures r == StartOfDay(person, day, d)
  {
    var (fromHour, toHour) := StartWindow(person, day);
    var text := RandomTimeInTimeframe(fromHour, toHour, d.startOffsetMinutes);
    DrawnClockMinutesReadsText(fromHour, toHour, d.startOffsetMinutes);
    if text.Err? {
      return Err(text.error);
    }
    var clock := ParseClock(text.value);
    if clock.None? {
      return Err(ValueError);
    }
    r := Ok(MidnightEpoch(day) + clock.value * 60);
  }

  /** `generate_daily_route_for_person`: a fresh route holding exactly the stitched day, or the
      error the code raises. */
  method GenerateDailyRouteForPerson(person: Person, day: int, d: Draws, router: Router) returns (r: Result<DailyRoute>)
    ensures r.Ok? <==> Stitch(person, day, d, router).Ok?
    ensures r.Ok? ==> fresh(r.value) && r.value.waypoints == Stitch(person, day, d, router).value
    ensures r.Err? ==> Stitch(person, day, d, router) == Err(r.error)
  {
    var route := new DailyRoute();
    if d.leisureChoice >= |person.favoriteFreeTimePlaces| {
      return Err(IndexError);
    }
    var leisure := person.favoriteFreeTimePlaces[d.leisureChoice];
    var itinerary := ItineraryFor(person, day, leisure, d);
    var started := DrawStartOfDay(person, day, d);
    if started.Err? {
      return Err(started.error);
    }
    var now := started.value;
    route.AddWaypoint(HomeWaypoint(person, now));
    var coarse := CalculateDirections(router, itinerary.anchors, false);
    var numLegs := |itinerary.anchors| - 1;
    assert route.waypoints == [HomeWaypoint(person, now)];
    assert StartOfDay(person, day, d) == Ok(now);
    ghost var spec := VisitLegs(Walk(route.waypoints, 0, now), coarse, itinerary.stays, numLegs, numLegs, router);
    assert Stitch(person, day, d, router) == if spec.Ok? then Ok(spec.value.waypoints) else Err(spec.error);
    var walked := WalkLegs(route, 0, now, coarse, itinerary.stays, numLegs, router);
    if walked.Err? {
      return Err(walked.error);
    }
    r := Ok(route);
  }

  /** The waypoint lists of `routes`, in order. */
  ghost function WaypointsOf(routes: seq<DailyRoute>): (ws: seq<seq<Position>>)
    reads routes
    ensures |ws| == |routes|
    ensures forall k :: 0 <= k < |routes| ==> ws[k] == routes[k].waypoints
  {
    if |routes| == 0 then [] else WaypointsOf(routes[..|routes| - 1]) + [routes[|routes| - 1].waypoints]
  }

  /** The routes of days `0 .. n-1` in order, each from `dayRoute`; the first day that fails
      decides the error. */
  ghost function CollectDays(dayRoute: nat -> Result<seq<Position>>, n: nat): Result<seq<seq<Position>>>
  {
    if n == 0 then Ok([])
    else
      match CollectDays(dayRoute, n - 1)
      case Err(e) => Err(e)
      case Ok(days) =>
        match dayRoute(n - 1)
        case Err(e) => Err(e)
        case Ok(ws) => Ok(days + [ws])
  }

  /** The stitched day `k` of person number `i`: date `startDay + k`, draws `draws(i, k)`. */
  function DayRoutes(person: Person, i: nat, startDay: int, draws: (nat, nat) -> Draws, router: Router)
    : nat -> Result<seq<Position>>
  {
    (k: nat) => Stitch(person, startDay + k, draws(i, k), router)
  }

  /** A run one day longer adds that day's route. */
  lemma CollectDaysStep(dayRoute: nat -> Result<seq<Position>>, n: nat, days: seq<seq<Position>>, ws: seq<Position>)
    requires CollectDays(dayRoute, n) == Ok(days)
    requires dayRoute(n) == Ok(ws)
    ensures CollectDays(dayRoute, n + 1) == Ok(days + [ws])
  {
  }

  /** Day by day: a successful run holds one route per day, and entry `k` is the route of day `k`. */
  lemma {:induction false} CollectDaysAt(dayRoute: nat -> Result<seq<Position>>, n: nat, days: seq<seq<Position>>)
    requires CollectDays(dayRoute, n) == Ok(days)
    ensures |days| == n
    ensures forall k :: 0 <= k < n ==> dayRoute(k) == Ok(days[k])
  {
    if n > 0 {
      var prev := CollectDays(dayRoute, n - 1).value;
      assert days == prev + [dayRoute(n - 1).value];
      CollectDaysAt(dayRoute, n - 1, prev);
      assert forall k :: 0 <= k < n - 1 ==> days[k] == prev[k];
    }
  }

  /** Conversely, when every day succeeds the run succeeds. */
  lemma {:induction false} CollectDaysOk(dayRoute: nat -> Result<seq<Position>>, n: nat)
    requires forall k :: 0 <= k < n ==> dayRoute(k).Ok?
    ensures CollectDays(dayRoute, n).Ok?
  {
    if n > 0 {
      CollectDaysOk(dayRoute, n - 1);
    }
  }

  /** Once a day fails, every longer run fails with the same error. */
  lemma {:induction false} CollectDaysErrSticky(dayRoute: nat -> Result<seq<Position>>, n: nat, m: nat)
    requires n <= m
    requires CollectDays(dayRoute, n).Err?
    ensures CollectDays(dayRoute, m) == CollectDays(dayRoute, n)
    decreases m
  {
    if n < m {
      CollectDaysErrSticky(dayRoute, n, m - 1);
    }
  }

  /** Person `p`, who had the routes `before`, now also has the stitched routes of the first
      `days` consecutive days from `startDay`, in date order, with `draws(i, k)` used on day `k`. */
  ghost predicate RoutedFor(p: Person, before: seq<DailyRoute>, i: nat, days: nat, startDay: int,
                            draws: (nat, nat) -> Draws, router: Router)
    reads p, p.pastRoutes
  {
    && CollectDays(DayRoutes(p, i, startDay, draws, router), days).Ok?
    && |p.pastRoutes| == |before| + days
    && p.pastRoutes[..|before|] == before
    && WaypointsOf(p.pastRoutes[|before|..]) == CollectDays(DayRoutes(p, i, startDay, draws, router), days).value
  }

  /** Person `p`, who had the routes `before`, got the routes of the `failed` days before the
      failing one, and day `failed` raised `e`. */
  ghost predicate FailedOn(p: Person, before: seq<DailyRoute>, i: nat, failed: nat, startDay: int,
                           draws: (nat, nat) -> Draws, router: Router, e: Error)
    reads p, p.pastRoutes
  {
    && RoutedFor(p, before, i, failed, startDay, draws, router)
    && Stitch(p, startDay + failed, draws(i, failed), router) == Err(e)
  }

  /** What a successful run says day by day: entry `k` is the stitched day `startDay + k`. */
  lemma CollectedDaysAreStitched(person: Person, i: nat, startDay: int, draws: (nat, nat) -> Draws, router: Router,
                                 n: nat, days: seq<seq<Position>>)
    requires CollectDays(DayRoutes(person, i, startDay, draws, router), n) == Ok(days)
    ensures |days| == n
    ensures forall k :: 0 <= k < n ==> Stitch(person, startDay + k, draws(i, k), router) == Ok(days[k])
  {
    CollectDaysAt(DayRoutes(person, i, startDay, draws, router), n, days);
    forall k | 0 <= k < n
      ensures Stitch(person, startDay + k, draws(i, k), router) == Ok(days[k])
    {
      assert DayRoutes(person, i, startDay, draws, router)(k) == Ok(days[k]);
    }
  }

  /** One iteration of the driver's inner loop: route one day and file the route with the person. */
  method RouteOneDay(person: Person, day: int, d: Draws, router: Router) returns (r: Result<DailyRoute>)
    modifies person
    ensures r.Ok? <==> Stitch(person, day, d, router).Ok?
    ensures r.Ok? ==> Stitch(person, day, d, router) == Ok(r.value.waypoints)
    ensures r.Err? ==> Stitch(person, day, d, router) == Err(r.error)
    ensures r.Ok? ==> person.pastRoutes == old(person.pastRoutes) + [r.value]
    ensures r.Err? ==> person.pastRoutes == old(person.pastRoutes)
  {
    r := GenerateDailyRouteForPerson(person, day, d, router);
    if r.Ok? {
      person.AddRoute(r.value);
    }
  }

  /** The inner loop of the driver: `numDays` consecutive dates for one person, in date order.
      Each route is filed with the person as soon as it is made. */
  method RouteAllDays(person: Person, i: nat, startDay: int, numDays: nat, draws: (nat, nat) -> Draws, router: Router)
    returns (r: Result<()>)
    modifies person
    ensures r.Ok? <==> CollectDays(DayRoutes(person, i, startDay, draws, router), numDays).Ok?
    ensures r.Ok? ==> RoutedFor(person, old(person.pastRoutes), i, numDays, startDay, draws, router)
    ensures r.Err? ==> exists failed ::
      0 <= failed < numDays && FailedOn(person, old(person.pastRoutes), i, failed, startDay, draws, router, r.error)
  {
    ghost var before := person.pastRoutes;
    ghost var routes: seq<DailyRoute> := [];
    var day := 0;
    while day < numDays
      invariant 0 <= day <= numDays && |routes| == day
      invariant person.pastRoutes == before + routes
      invariant CollectDays(DayRoutes(person, i, startDay, draws, router), day) == Ok(WaypointsOf(routes))
    {
      var routed := RouteOneDay(person, startDay + day, draws(i, day), router);
      if routed.Err? {
        CollectDaysErrSticky(DayRoutes(person, i, startDay, draws, router), day + 1, numDays);
        assert person.pastRoutes[|before|..] == routes;
        assert FailedOn(person, before, i, day, startDay, draws, router, routed.error);
        return Err(routed.error);
      }
      CollectDaysStep(DayRoutes(person, i, startDay, draws, router), day, WaypointsOf(routes), routed.value.waypoints);
      assert (routes + [routed.value])[..day] == routes;
      routes := routes + [routed.value];
      day := day + 1;
    }
    assert person.pastRoutes[|before|..] == routes;
    r := Ok(());
  }

  /** `generate_daily_routes_sequentially`: every person, in list order, gets one stitched route
      per day for `numDays` consecutive days from `startDay`; an error stops the run. */
  method GenerateDailyRoutesSequentially(startDay: int, numDays: nat, people: seq<Person>,
                                         draws: (nat, nat) -> Draws, router: Router)
    returns (r: Result<()>)
    requires forall i, j :: 0 <= i < j < |people| ==> people[i] != people[j]
    modifies set p | p in people
    ensures r.Ok? ==> forall i :: 0 <= i < |people| ==>
      RoutedFor(people[i], old(people[i].pastRoutes), i, numDays, startDay, draws, router)
    ensures r.Err? ==>
      exists i :: 0 <= i < |people| && CollectDays(DayRoutes(people[i], i, startDay, draws, router), numDays).Err?
    ensures r.Err? ==> exists i ::
      (&& 0 <= i < |people|
       && (forall j :: 0 <= j < i ==>
             RoutedFor(people[j], old(people[j].pastRoutes), j, numDays, startDay, draws, router))
       && (exists failed :: 0 <= failed < numDays &&
             FailedOn(people[i], old(people[i].pastRoutes), i, failed, startDay, draws, router, r.error))
       && (forall j :: i < j < |people| ==> people[j].pastRoutes == old(people[j].pastRoutes)))
  {
    var i := 0;
    while i < |people|
      invariant 0 <= i <= |people|
      invariant forall j :: 0 <= j < i ==>
        RoutedFor(people[j], old(people[j].pastRoutes), j, numDays, startDay, draws, router)
      invariant forall j :: i <= j < |people| ==> people[j].pastRoutes == old(people[j].pastRoutes)
    {
      var routed := RouteAllDays(people[i], i, startDay, numDays, draws, router);
      if routed.Err? {
        return Err(routed.error);
      }
      i := i + 1;
    }
    r := Ok(());
  }
}

=== FILE: people.dfy ===
/** src/models/person.py: a simulated person and the daily routes generated for them. */
module People {
  import opened Wrappers
  import opened Positions
  import opened Places
  import opened Routes

  class Person {
    const id: int
    const homeLocation: Position
    const workplace: Workplace
    const favoriteFreeTimePlaces: seq<FreeTimePlace>
    var pastRoutes: seq<DailyRoute>

    constructor (pId: int, homeLocation: Position, workplace: Workplace, favoriteFreeTimePlaces: seq<FreeTimePlace>)
      ensures id == pId && this.homeLocation == homeLocation && this.workplace == workplace
      ensures this.favoriteFreeTimePlaces == favoriteFreeTimePlaces
      ensures pastRoutes == []
    {
      id := pId;
      this.homeLocation := homeLocation;
      this.workplace := workplace;
      this.favoriteFreeTimePlaces := favoriteFreeTimePlaces;
      pastRoutes := [];
    }

    method AddRoute(route: DailyRoute)
      modifies this
      ensures pastRoutes == old(pastRoutes) + [route]
    {
      pastRoutes := pastRoutes + [route];
    }

    function GetAllRoutes(): (r: seq<DailyRoute>)
      reads this
    {
      pastRoutes
    }

    /** One exported dictionary per stored route, in insertion order, each tagged with this person's id. */
    method GetAllRoutesAsDicts() returns (r: seq<RouteDict>)
      ensures |r| == |pastRoutes|
      ensures forall i :: 0 <= i < |r| ==> r[i] == Export(pastRoutes[i].waypoints, Some(id))
    {
      r := [];
      var i := 0;
      while i < |pastRoutes|
        invariant 0 <= i <= |pastRoutes|
        invariant |r| == i
        invariant forall k :: 0 <= k < i ==> r[k] == Export(pastRoutes[k].waypoints, Some(id))
      {
        var info := pastRoutes[i].ToDict();
        info := info.(person := Some(id));
        r := r + [info];
        i := i + 1;
      }
    }
  }
}

=== FILE: places.dfy ===
/** src/models/place.py: places of interest, workplaces with a capacity, free-time places. */
module Places {

  /** The five fields a `Place` is constructed from; `__eq__` compares exactly these. */
  datatype PlaceBase = PlaceBase(categoryId: int, categoryName: string, name: string, latitude: int, longitude: int)

  /** The `WorkInfo` record of a category: capacity and the window (in whole hours) a working day starts in. */
  datatype WorkInfo = WorkInfo(maxWorkers: int, startTimeFrom: int, startTimeTo: int)

  /** The `FreeTimeActivityInfo` record of a category; the typical stay is kept in seconds. */
  datatype FreeTimeInfo = FreeTimeInfo(typicalStaySeconds: int)

  /** `Place.__eq__`: field-wise equality of the base fields. */
  predicate SamePlace(a: PlaceBase, b: PlaceBase)
  {
    && a.categoryId == b.categoryId
    && a.categoryName == b.categoryName
    && a.name == b.name
    && a.latitude == b.latitude
    && a.longitude == b.longitude
  }

  /** `__eq__` is exactly equality of the base record, hence reflexive and symmetric. */
  lemma SamePlaceIsBaseEquality(a: PlaceBase, b: PlaceBase)
    ensures SamePlace(a, b) <==> a == b
    ensures SamePlace(a, a)
    ensures SamePlace(a, b) == SamePlace(b, a)
  {
  }

  /** A free-time place is never updated after construction, so it is a value. */
  datatype FreeTimePlace = FreeTimePlace(base: PlaceBase, typicalStaySeconds: int)

  /** `FreeTimePlace(...)`: copies the base fields and `TypicalStayDurationHours`. */
  function MakeFreeTimePlace(base: PlaceBase, info: FreeTimeInfo): (p: FreeTimePlace)
    ensures p.base == base && p.typicalStaySeconds == info.typicalStaySeconds
  {
    FreeTimePlace(base, info.typicalStaySeconds)
  }

  /** A workplace: `current_people` is incremented in place when a person is assigned. */
  class Workplace {
    const base: PlaceBase
    const maxWorkers: int
    const startTimeFrom: int
    const startTimeTo: int
    var currentPeople: int

    constructor (base: PlaceBase, info: WorkInfo)
      ensures this.base == base
      ensures maxWorkers == info.maxWorkers
      ensures startTimeFrom == info.startTimeFrom && startTimeTo == info.startTimeTo
      ensures currentPeople == 0
    {
      this.base := base;
      maxWorkers := info.maxWorkers;
      startTimeFrom := info.startTimeFrom;
      startTimeTo := info.startTimeTo;
      currentPeople := 0;
    }

    predicate HasCapacity()
      reads this
    {
      currentPeople < maxWorkers
    }
  }

  /** `__eq__` ignores everything but the base fields: a workplace and a free-time place
      built from the same base compare equal whatever their own fields are. */
  lemma WorkplaceEqualsFreeTimePlace(w: Workplace, f: FreeTimePlace)
    requires w.base == f.base
    ensures SamePlace(f.base, w.base) && SamePlace(w.base, f.base)
  {
  }
}

=== FILE: points_of_interest.dfy ===
/** src/lib/points_of_interest.py: the split of the category catalogue into group ids and plain
    category ids, and `parse_pois`, which turns point-of-interest features into workplaces and
    free-time places using the catalogue, falling back to a group category for unknown ids. */
module PointsOfInterest {
  import opened Wrappers
  import opened Decimal
  import opened Places

  /** One record of the category catalogue (`places_info`). A `WorkInfo` or
      `FreeTimeActivityInfo` that is null or empty (falsy) is `None`. */
  datatype CategoryInfo = CategoryInfo(isGroupId: bool, workInfo: Option<WorkInfo>, freeTimeInfo: Option<FreeTimeInfo>)

  /** The catalogue as its (key, record) items, in the dictionary's order. The keys are the
      category ids as text, as JSON object keys are. */
  type PlacesInfo = seq<(string, CategoryInfo)>

  /** A dictionary never holds the same key twice. */
  predicate DistinctKeys(places: PlacesInfo)
  {
    forall i, j :: 0 <= i < j < |places| ==> places[i].0 != places[j].0
  }

  /** `places_info.get(key)`. */
  function Lookup(places: PlacesInfo, key: string): (r: Option<CategoryInfo>)
    ensures r.None? <==> forall i :: 0 <= i < |places| ==> places[i].0 != key
    ensures r.Some? ==> exists i :: 0 <= i < |places| && places[i] == (key, r.value)
  {
    if |places| == 0 then None
    else
      var front := places[..|places| - 1];
      match Lookup(front, key)
      case Some(info) => Some(info)
      case None =>
        if places[|places| - 1].0 == key then Some(places[|places| - 1].1) else None
  }

  // ---------------------------------------------------------------------------------------------
  // The category partition (get_all_pois) and the known group keys (parse_pois)
  // ---------------------------------------------------------------------------------------------

  /** The keys whose record has `IsGroupID == group`, in catalogue order. */
  function KeysWhere(places: PlacesInfo, group: bool): (keys: seq<string>)
    ensures |keys| <= |places|
    ensures forall k :: k in keys ==> exists i :: 0 <= i < |places| && places[i].0 == k && places[i].1.isGroupId == group
    ensures forall i :: 0 <= i < |places| && places[i].1.isGroupId == group ==> places[i].0 in keys
  {
    if |places| == 0 then []
    else
      var front := KeysWhere(places[..|places| - 1], group);
      var last := places[|places| - 1];
      if last.1.isGroupId == group then front + [last.0] else front
  }

  /** Every key lands in exactly one of the two lists: the group list when its record says
      `IsGroupID`, the category list otherwise; together they hold one entry per key. */
  lemma {:induction false} CategoryPartition(places: PlacesInfo)
    ensures |KeysWhere(places, true)| + |KeysWhere(places, false)| == |places|
    ensures forall i :: 0 <= i < |places| ==>
      (places[i].1.isGroupId ==> places[i].0 in KeysWhere(places, true))
      && (!places[i].1.isGroupId ==> places[i].0 in KeysWhere(places, false))
    ensures DistinctKeys(places) ==>
      forall k :: !(k in KeysWhere(places, true) && k in KeysWhere(places, false))
    decreases |places|
  {
    if |places| > 0 {
      CategoryPartition(places[..|places| - 1]);
    }
  }

  /** `[int(k) for k in keys]`: `int()` raises on any key that is not a digit string. */
  function ParseIds(keys: seq<string>): (r: Result<seq<int>>)
    ensures r.Ok? <==> forall i :: 0 <= i < |keys| ==> ParseInt(keys[i]).Some?
    ensures r.Err? ==> r.error == ValueError
    ensures r.Ok? ==> |r.value| == |keys| && forall i :: 0 <= i < |keys| ==> ParseInt(keys[i]) == Some(r.value[i])
  {
    if |keys| == 0 then Ok([])
    else
      match ParseIds(keys[..|keys| - 1])
      case Err(e) => Err(e)
      case Ok(front) =>
        match ParseInt(keys[|keys| - 1])
        case None => Err(ValueError)
        case Some(id) => Ok(front + [id])
  }

  /** `category_group_ids_of_interest` (group = true) and `category_ids_of_interest` (group = false). */
  function IdsOfInterest(places: PlacesInfo, group: bool): Result<seq<int>>
  {
    ParseIds(KeysWhere(places, group))
  }

  /** When both lists can be built, they hold one id per catalogue key between them, each key's
      id in the list its `IsGroupID` flag picks. */
  lemma IdsOfInterestCoverCatalogue(places: PlacesInfo)
    requires IdsOfInterest(places, true).Ok? && IdsOfInterest(places, false).Ok?
    ensures |IdsOfInterest(places, true).value| + |IdsOfInterest(places, false).value| == |places|
    ensures forall i :: 0 <= i < |places| ==>
      ParseInt(places[i].0).Some?
      && (places[i].1.isGroupId ==> ParseInt(places[i].0).value in IdsOfInterest(places, true).value)
      && (!places[i].1.isGroupId ==> ParseInt(places[i].0).value in IdsOfInterest(places, false).value)
  {
    CategoryPartition(places);
    forall i | 0 <= i < |places|
      ensures ParseInt(places[i].0).Some?
      ensures places[i].1.isGroupId ==> ParseInt(places[i].0).value in IdsOfInterest(places, true).value
      ensures !places[i].1.isGroupId ==> ParseInt(places[i].0).value in IdsOfInterest(places, false).value
    {
      var keys := KeysWhere(places, places[i].1.isGroupId);
      var k :| 0 <= k < |keys| && keys[k] == places[i].0;
      assert ParseInt(keys[k]) == Some(IdsOfInterest(places, places[i].1.isGroupId).value[k]);
    }
  }

  /** The loop of `parse_pois` that collects the group keys, in catalogue order. */
  method CollectGroupKeys(places: PlacesInfo) returns (keys: seq<string>)
    ensures keys == KeysWhere(places, true)
  {
    keys := [];
    for i := 0 to |places|
      invariant keys == KeysWhere(places[..i], true)
    {
      assert places[..i + 1][..i] == places[..i];
      if places[i].1.isGroupId {
        keys := keys + [places[i].0];
      }
    }
    assert places[..|places|] == places;
  }

  // ---------------------------------------------------------------------------------------------
  // `sorted` on strings
  // ---------------------------------------------------------------------------------------------

  /** Python's string ordering: code point by code point, a proper prefix first. */
  predicate StrLe(a: string, b: string)
    decreases |a|
  {
    |a| == 0 || (|b| > 0 && (a[0] < b[0] || (a[0] == b[0] && StrLe(a[1..], b[1..]))))
  }

  lemma {:induction false} StrLeTotal(a: string, b: string)
    ensures StrLe(a, b) || StrLe(b, a)
    decreases |a|
  {
    if |a| > 0 && |b| > 0 && a[0] == b[0] {
      StrLeTotal(a[1..], b[1..]);
    }
  }

  predicate SortedStrings(s: seq<string>)
  {
    forall i :: 0 < i < |s| ==> StrLe(s[i - 1], s[i])
  }

  function Insert(x: string, s: seq<string>): (r: seq<string>)
    ensures |r| == |s| + 1
    ensures r[0] == x || (|s| > 0 && r[0] == s[0])
  {
    if |s| == 0 then [x]
    else if StrLe(x, s[0]) then [x] + s
    else [s[0]] + Insert(x, s[1..])
  }

  lemma {:induction false} InsertKeepsSorted(x: string, s: seq<string>)
    requires SortedStrings(s)
    ensures SortedStrings(Insert(x, s))
    decreases |s|
  {
    if |s| > 0 && !StrLe(x, s[0]) {
      InsertKeepsSorted(x, s[1..]);
      StrLeTotal(x, s[0]);
    }
  }

  lemma {:induction false} InsertAddsOne(x: string, s: seq<string>)
    ensures multiset(Insert(x, s)) == multiset(s) + multiset{x}
    decreases |s|
  {
    if |s| > 0 && !StrLe(x, s[0]) {
      InsertAddsOne(x, s[1..]);
      assert s == [s[0]] + s[1..];
    }
  }

  /** `sorted(keys)`. */
  function SortStrings(s: seq<string>): (r: seq<string>)
  {
    if |s| == 0 then [] else Insert(s[0], SortStrings(s[1..]))
  }

  /** `sorted` returns the keys in ascending string order, ... */
  lemma {:induction false} SortStringsSorts(s: seq<string>)
    ensures SortedStrings(SortStrings(s))
    decreases |s|
  {
    if |s| > 0 {
      SortStringsSorts(s[1..]);
      InsertKeepsSorted(s[0], SortStrings(s[1..]));
    }
  }

  /** ... and the same keys, each as often. */
  lemma {:induction false} SortStringsPermutes(s: seq<string>)
    ensures multiset(SortStrings(s)) == multiset(s)
    decreases |s|
  {
    if |s| > 0 {
      SortStringsPermutes(s[1..]);
      InsertAddsOne(s[0], SortStrings(s[1..]));
      assert s == [s[0]] + s[1..];
    }
  }

  /** String order is not numeric order: "100" sorts before "20". */
  lemma StringOrderIsNotNumeric()
    ensures SortStrings(["20", "100"]) == ["100", "20"]
  {
    assert StrLe("100", "20");
    assert SortStrings(["100"]) == ["100"];
  }

  /** The group keys `parse_pois` searches, sorted as strings. */
  function KnownGroups(places: PlacesInfo): seq<string>
  {
    SortStrings(KeysWhere(places, true))
  }

  // ---------------------------------------------------------------------------------------------
  // The group fallback
  // ---------------------------------------------------------------------------------------------

  /** The fallback loop: every group key is compared in turn, and the last one (in list order)
      whose integer value is below the category's wins; `int()` raises on a non-digit key. */
  function LastLowerGroup(groups: seq<string>, key: string): (r: Result<Option<string>>)
    ensures r.Ok? <==> |groups| == 0 || (ParseInt(key).Some? && forall j :: 0 <= j < |groups| ==> ParseInt(groups[j]).Some?)
    ensures r.Err? ==> r.error == ValueError
  {
    if |groups| == 0 then Ok(None)
    else
      match LastLowerGroup(groups[..|groups| - 1], key)
      case Err(e) => Err(e)
      case Ok(best) =>
        match (ParseInt(key), ParseInt(groups[|groups| - 1]))
        case (Some(id), Some(groupId)) => if id > groupId then Ok(Some(groups[|groups| - 1])) else Ok(best)
        case _ => Err(ValueError)
  }

  /** With groups "20" and "100", category 150 falls back to group 20, which comes last in string
      order, although 100 is the lower group nearest to it. */
  lemma FallbackIsNotNumericallyNearest()
    ensures LastLowerGroup(SortStrings(["20", "100"]), "150") == Ok(Some("20"))
    ensures ParseInt("100") == Some(100) && ParseInt("20") == Some(20) && ParseInt("150") == Some(150)
  {
    StringOrderIsNotNumeric();
    assert ["100", "20"][..1] == ["100"];
    assert "100"[..2] == "10" && "10"[..1] == "1" && "1"[..0] == "";
    assert ParseNat("100") == 100;
    assert "20"[..1] == "2" && "2"[..0] == "";
    assert ParseNat("20") == 20;
    assert "150"[..2] == "15" && "15"[..1] == "1";
    assert ParseNat("150") == 150;
  }

  /** The fallback is a group whose value is below the category's, and no later group in the list
      is below it; with no fallback, no group is below it. */
  lemma {:induction false} LastLowerGroupIsLastLower(groups: seq<string>, key: string)
    requires LastLowerGroup(groups, key).Ok? && |groups| > 0
    ensures ParseInt(key).Some? && forall j :: 0 <= j < |groups| ==> ParseInt(groups[j]).Some?
    ensures LastLowerGroup(groups, key).value.None? ==>
      forall j :: 0 <= j < |groups| ==> ParseInt(groups[j]).value >= ParseInt(key).value
    ensures LastLowerGroup(groups, key).value.Some? ==>
      exists i :: 0 <= i < |groups| && groups[i] == LastLowerGroup(groups, key).value.value
        && ParseInt(groups[i]).value < ParseInt(key).value
        && forall j :: i < j < |groups| ==> ParseInt(groups[j]).value >= ParseInt(key).value
    decreases |groups|
  {
    var front := groups[..|groups| - 1];
    if |front| > 0 {
      LastLowerGroupIsLastLower(front, key);
    }
  }

  /** The fallback loop of `parse_pois`: `best_id_match` moves to every lower group in turn. */
  method FindFallbackGroup(groups: seq<string>, key: string) returns (r: Result<Option<string>>)
    ensures r == LastLowerGroup(groups, key)
  {
    var best: Option<string> := None;
    for i := 0 to |groups|
      invariant LastLowerGroup(groups[..i], key) == Ok(best)
    {
      assert groups[..i + 1][..i] == groups[..i];
      var id := ParseInt(key);
      var groupId := ParseInt(groups[i]);
      if id.None? || groupId.None? {
        ErrSticksToLongerGroups(groups, key, i + 1);
        return Err(ValueError);
      }
      if id.value > groupId.value {
        best := Some(groups[i]);
      }
    }
    assert groups[..|groups|] == groups;
    return Ok(best);
  }

  lemma {:induction false} ErrSticksToLongerGroups(groups: seq<string>, key: string, n: nat)
    requires n <= |groups|
    requires LastLowerGroup(groups[..n], key).Err?
    ensures LastLowerGroup(groups, key) == Err(ValueError)
    decreases |groups| - n
  {
    if n < |groups| {
      assert groups[..n + 1][..n] == groups[..n];
      ErrSticksToLongerGroups(groups, key, n + 1);
    } else {
      assert groups[..n] == groups;
    }
  }

  /** The record a feature's category id resolves to: its own, else that of the fallback group;
      `places_info[-1]` raises KeyError when no group is lower. */
  function RelatedInfo(places: PlacesInfo, groups: seq<string>, key: string): (r: Result<CategoryInfo>)
    ensures Lookup(places, key).Some? ==> r == Ok(Lookup(places, key).value)
    ensures Lookup(places, key).None? && LastLowerGroup(groups, key) == Ok(None) ==> r == Err(KeyError)
    ensures r.Ok? && Lookup(places, key).None? ==>
      exists g :: LastLowerGroup(groups, key) == Ok(Some(g)) && Lookup(places, g) == Some(r.value)
  {
    match Lookup(places, key)
    case Some(info) => Ok(info)
    case None =>
      match LastLowerGroup(groups, key)
      case Err(e) => Err(e)
      case Ok(None) => Err(KeyError)
      case Ok(Some(g)) =>
        match Lookup(places, g)
        case None => Err(KeyError)
        case Some(info) => Ok(info)
  }

  /** The fallback group found among the catalogue's own group keys always has a record, and
      that record is a group record. */
  lemma FallbackRecordExists(places: PlacesInfo, key: string, g: string)
    requires LastLowerGroup(KnownGroups(places), key) == Ok(Some(g))
    ensures Lookup(places, g).Some?
    ensures DistinctKeys(places) ==> Lookup(places, g).value.isGroupId
  {
    var groups := KeysWhere(places, true);
    LastLowerGroupIsLastLower(KnownGroups(places), key);
    SortStringsPermutes(groups);
    assert g in KnownGroups(places);
    assert g in multiset(KnownGroups(places));
    assert g in groups;
    var i :| 0 <= i < |places| && places[i].0 == g && places[i].1.isGroupId;
    if DistinctKeys(places) {
      var j :| 0 <= j < |places| && places[j] == (g, Lookup(places, g).value);
      assert i == j;
    }
  }

  // ---------------------------------------------------------------------------------------------
  // One feature
  // ---------------------------------------------------------------------------------------------

  /** One point-of-interest feature: its `category_ids` items (each with its `category_name`,
      absent as `None`), its `osm_tags` (absent or null as `None`) and its [lon, lat] coordinates. */
  datatype Feature = Feature(categoryIds: seq<(string, Option<string>)>, osmTags: Option<map<string, string>>,
                             coordinates: seq<int>)

  /** The name: `osm_tags["name"]`, or "" when there are no tags or no name among them. */
  function FeatureName(tags: Option<map<string, string>>): string
  {
    if tags.None? || "name" !in tags.value then "" else tags.value["name"]
  }

  /** What one feature adds: a workplace (its place fields and work record) and a free-time place,
      each present or not. */
  datatype Outcome = Outcome(work: Option<(PlaceBase, WorkInfo)>, freeTime: Option<FreeTimePlace>)

  /** The body of the feature loop of `parse_pois`, or the exception it raises. */
  function ParseFeature(places: PlacesInfo, groups: seq<string>, f: Feature): (r: Result<Outcome>)
    ensures r.Ok? ==> |f.categoryIds| > 0 && f.categoryIds[0].1.Some? && |f.coordinates| >= 2
    ensures |f.categoryIds| == 0 ==> r == Err(IndexError)
    ensures |f.categoryIds| > 0 && f.categoryIds[0].1.None? ==> r == Err(KeyError)
    ensures |f.categoryIds| > 0 && f.categoryIds[0].1.Some? && |f.coordinates| < 2 ==> r == Err(IndexError)
  {
    if |f.categoryIds| == 0 then Err(IndexError)
    else
      var key := f.categoryIds[0].0;
      var categoryName := f.categoryIds[0].1;
      if categoryName.None? then Err(KeyError)
      else if |f.coordinates| < 2 then Err(IndexError)
      else
        match RelatedInfo(places, groups, key)
        case Err(e) => Err(e)
        case Ok(info) =>
          if info.workInfo.None? && info.freeTimeInfo.None? then Ok(Outcome(None, None))
          else
            match ParseInt(key)
            case None => Err(ValueError)
            case Some(id) =>
              var base := PlaceBase(id, categoryName.value, FeatureName(f.osmTags), f.coordinates[1], f.coordinates[0]);
              Ok(Outcome(
                if info.workInfo.Some? then Some((base, info.workInfo.value)) else None,
                if info.freeTimeInfo.Some? then Some(MakeFreeTimePlace(base, info.freeTimeInfo.value)) else None))
  }

  /** A parsed feature takes its category id (as an int), category name, name and coordinates
      from the feature, and yields a workplace exactly when the resolved record has work
      information and a free-time place exactly when it has free-time information. */
  lemma ParseFeatureFields(places: PlacesInfo, groups: seq<string>, f: Feature)
    requires ParseFeature(places, groups, f).Ok?
    ensures |f.categoryIds| > 0 && f.categoryIds[0].1.Some? && |f.coordinates| >= 2
    ensures RelatedInfo(places, groups, f.categoryIds[0].0).Ok?
    ensures var r := ParseFeature(places, groups, f);
      var key := f.categoryIds[0].0;
      var info := RelatedInfo(places, groups, key).value;
      && (r.value.work.Some? <==> info.workInfo.Some?)
      && (r.value.freeTime.Some? <==> info.freeTimeInfo.Some?)
      && (r.value.work.Some? || r.value.freeTime.Some? ==> ParseInt(key).Some?)
      && (r.value.work.Some? ==>
            r.value.work.value.1 == info.workInfo.value
            && r.value.work.value.0 == PlaceBase(ParseInt(key).value, f.categoryIds[0].1.value,
                                                FeatureName(f.osmTags), f.coordinates[1], f.coordinates[0]))
      && (r.value.freeTime.Some? ==>
            r.value.freeTime.value == FreeTimePlace(
              PlaceBase(ParseInt(key).value, f.categoryIds[0].1.value, FeatureName(f.osmTags),
                        f.coordinates[1], f.coordinates[0]),
              info.freeTimeInfo.value.typicalStaySeconds))
  {
  }

  /** A category id with its own record is not looked up among the groups at all. */
  lemma KnownCategorySkipsFallback(places: PlacesInfo, groups: seq<string>, f: Feature)
    requires |f.categoryIds| > 0 && f.categoryIds[0].1.Some? && |f.coordinates| >= 2
    requires Lookup(places, f.categoryIds[0].0).Some?
    ensures ParseFeature(places, groups, f) == ParseFeature(places, [], f)
  {
  }

  /** An unknown category id with no lower group raises KeyError. */
  lemma UnknownCategoryWithoutLowerGroupFails(places: PlacesInfo, f: Feature)
    requires |f.categoryIds| > 0 && f.categoryIds[0].1.Some? && |f.coordinates| >= 2
    requires Lookup(places, f.categoryIds[0].0).None?
    requires LastLowerGroup(KnownGroups(places), f.categoryIds[0].0) == Ok(None)
    ensures ParseFeature(places, KnownGroups(places), f) == Err(KeyError)
  {
  }

  /** The loop body as code: it runs the fallback loop only for an unknown category id. */
  method ClassifyFeature(places: PlacesInfo, groups: seq<string>, f: Feature) returns (r: Result<Outcome>)
    ensures r == ParseFeature(places, groups, f)
  {
    if |f.categoryIds| == 0 {
      return Err(IndexError);
    }
    var key := f.categoryIds[0].0;
    var categoryName := f.categoryIds[0].1;
    if categoryName.None? {
      return Err(KeyError);
    }
    if |f.coordinates| < 2 {
      return Err(IndexError);
    }
    var related := Lookup(places, key);
    if related.None? {
      var best := FindFallbackGroup(groups, key);
      if best.Err? {
        return Err(best.error);
      }
      if best.value.None? {
        return Err(KeyError);
      }
      related := Lookup(places, best.value.value);
      if related.None? {
        return Err(KeyError);
      }
    }
    var info := related.value;
    var work: Option<(PlaceBase, WorkInfo)> := None;
    var freeTime: Option<FreeTimePlace> := None;
    if info.workInfo.Some? || info.freeTimeInfo.Some? {
      var id := ParseInt(key);
      if id.None? {
        return Err(ValueError);
      }
      var base := PlaceBase(id.value, categoryName.value, FeatureName(f.osmTags), f.coordinates[1], f.coordinates[0]);
      if info.workInfo.Some? {
        work := Some((base, info.workInfo.value));
      }
      if info.freeTimeInfo.Some? {
        freeTime := Some(MakeFreeTimePlace(base, info.freeTimeInfo.value));
      }
    }
    return Ok(Outcome(work, freeTime));
  }

  // ---------------------------------------------------------------------------------------------
  // All features
  // ---------------------------------------------------------------------------------------------

  function WorkOf(o: Outcome): seq<(PlaceBase, WorkInfo)>
  {
    if o.work.Some? then [o.work.value] else []
  }

  function FreeTimeOf(o: Outcome): seq<FreeTimePlace>
  {
    if o.freeTime.Some? then [o.freeTime.value] else []
  }

  /** `parse_pois` as a value: the two lists, or the first exception a feature raises. */
  function ParseAll(places: PlacesInfo, features: seq<Feature>): (r: Result<(seq<(PlaceBase, WorkInfo)>, seq<FreeTimePlace>)>)
    ensures r.Ok? ==> |r.value.0| <= |features| && |r.value.1| <= |features|
  {
    if |features| == 0 then Ok(([], []))
    else
      match ParseAll(places, features[..|features| - 1])
      case Err(e) => Err(e)
      case Ok(acc) =>
        match ParseFeature(places, KnownGroups(places), features[|features| - 1])
        case Err(e) => Err(e)
        case Ok(o) => Ok((acc.0 + WorkOf(o), acc.1 + FreeTimeOf(o)))
  }

  /** The features parse as a whole exactly when each one parses on its own. */
  lemma {:induction false} ParseAllOkIffEachFeature(places: PlacesInfo, features: seq<Feature>)
    ensures ParseAll(places, features).Ok? <==>
      forall i :: 0 <= i < |features| ==> ParseFeature(places, KnownGroups(places), features[i]).Ok?
    decreases |features|
  {
    if |features| > 0 {
      var front := features[..|features| - 1];
      ParseAllOkIffEachFeature(places, front);
      assert forall i :: 0 <= i < |front| ==> front[i] == features[i];
    }
  }

  /** The lists for a prefix of the features are prefixes of the lists for all of them: entries
      keep feature order. */
  lemma {:induction false} ParseAllKeepsOrder(places: PlacesInfo, features: seq<Feature>, n: nat)
    requires n <= |features|
    requires ParseAll(places, features).Ok?
    ensures ParseAll(places, features[..n]).Ok?
    ensures ParseAll(places, features[..n]).value.0 <= ParseAll(places, features).value.0
    ensures ParseAll(places, features[..n]).value.1 <= ParseAll(places, features).value.1
    decreases |features| - n
  {
    if n == |features| {
      assert features[..n] == features;
    } else {
      var longer := features[..n + 1];
      assert longer[..n] == features[..n];
      ParseAllKeepsOrder(places, features, n + 1);
    }
  }

  /** Every workplace and free-time place in the result comes from some feature's outcome. */
  lemma {:induction false} ParseAllEntriesComeFromFeatures(places: PlacesInfo, features: seq<Feature>)
    requires ParseAll(places, features).Ok?
    ensures forall w :: w in ParseAll(places, features).value.0 ==>
      exists i :: 0 <= i < |features| && ParseFeature(places, KnownGroups(places), features[i]).Ok?
        && ParseFeature(places, KnownGroups(places), features[i]).value.work == Some(w)
    ensures forall p :: p in ParseAll(places, features).value.1 ==>
      exists i :: 0 <= i < |features| && ParseFeature(places, KnownGroups(places), features[i]).Ok?
        && ParseFeature(places, KnownGroups(places), features[i]).value.freeTime == Some(p)
    decreases |features|
  {
    if |features| > 0 {
      var front := features[..|features| - 1];
      ParseAllEntriesComeFromFeatures(places, front);
      assert forall i :: 0 <= i < |front| ==> front[i] == features[i];
    }
  }

  /** One more feature: its outcome is appended, or its exception ends the parse. */
  lemma ParseAllStep(places: PlacesInfo, features: seq<Feature>, i: nat)
    requires i < |features|
    requires ParseAll(places, features[..i]).Ok?
    ensures var acc := ParseAll(places, features[..i]).value;
      ParseAll(places, features[..i + 1]) ==
        match ParseFeature(places, KnownGroups(places), features[i])
        case Err(e) => Err(e)
        case Ok(o) => Ok((acc.0 + WorkOf(o), acc.1 + FreeTimeOf(o)))
  {
    assert features[..i + 1][..i] == features[..i];
  }

  lemma {:induction false} ParseAllErrSticks(places: PlacesInfo, features: seq<Feature>, n: nat)
    requires n <= |features|
    requires ParseAll(places, features[..n]).Err?
    ensures ParseAll(places, features).Err?
    decreases |features| - n
  {
    if n < |features| {
      assert features[..n + 1][..n] == features[..n];
      ParseAllErrSticks(places, features, n + 1);
    } else {
      assert features[..n] == features;
    }
  }

  /** The workplaces `ws` were built from `specs`, one each, with no one assigned yet. */
  ghost predicate BuiltFrom(ws: seq<Workplace>, specs: seq<(PlaceBase, WorkInfo)>)
    reads set w | w in ws
  {
    && |ws| == |specs|
    && forall i :: 0 <= i < |ws| ==>
      && ws[i].base == specs[i].0
      && ws[i].maxWorkers == specs[i].1.maxWorkers
      && ws[i].startTimeFrom == specs[i].1.startTimeFrom
      && ws[i].startTimeTo == specs[i].1.startTimeTo
      && ws[i].currentPeople == 0
  }

  /** `workplaces.append(Workplace(...))` when the feature yields a workplace. */
  method AddWorkplace(workplaces: seq<Workplace>, ghost specs: seq<(PlaceBase, WorkInfo)>, o: Outcome)
    returns (ws: seq<Workplace>)
    requires BuiltFrom(workplaces, specs)
    requires forall i, j :: 0 <= i < j < |workplaces| ==> workplaces[i] != workplaces[j]
    ensures BuiltFrom(ws, specs + WorkOf(o))
    ensures forall w :: w in ws ==> w in workplaces || fresh(w)
    ensures forall i, j :: 0 <= i < j < |ws| ==> ws[i] != ws[j]
  {
    ws := workplaces;
    if o.work.Some? {
      var w := new Workplace(o.work.value.0, o.work.value.1);
      ws := ws + [w];
    }
  }

  /** `parse_pois`: the fresh workplaces and the free-time places, in feature order. */
  method ParsePois(places: PlacesInfo, features: seq<Feature>) returns (r: Result<(seq<Workplace>, seq<FreeTimePlace>)>)
    ensures r.Ok? <==> ParseAll(places, features).Ok?
    ensures r.Ok? ==>
      && BuiltFrom(r.value.0, ParseAll(places, features).value.0)
      && (forall w :: w in r.value.0 ==> fresh(w))
      && (forall i, j :: 0 <= i < j < |r.value.0| ==> r.value.0[i] != r.value.0[j])
      && r.value.1 == ParseAll(places, features).value.1
  {
    var groups := CollectGroupKeys(places);
    groups := SortStrings(groups);
    assert groups == KnownGroups(places);
    var workplaces: seq<Workplace> := [];
    ghost var specs: seq<(PlaceBase, WorkInfo)> := [];
    var freeTimePlaces: seq<FreeTimePlace> := [];
    for i := 0 to |features|
      invariant ParseAll(places, features[..i]) == Ok((specs, freeTimePlaces))
      invariant BuiltFrom(workplaces, specs)
      invariant forall w :: w in workplaces ==> fresh(w)
      invariant forall i, j :: 0 <= i < j < |workplaces| ==> workplaces[i] != workplaces[j]
    {
      var outcome := ClassifyFeature(places, groups, features[i]);
      if outcome.Err? {
        ParseAllStep(places, features, i);
        ParseAllErrSticks(places, features, i + 1);
        return Err(outcome.error);
      }
      var o := outcome.value;
      ParseAllStep(places, features, i);
      workplaces := AddWorkplace(workplaces, specs, o);
      specs := specs + WorkOf(o);
      freeTimePlaces := freeTimePlaces + FreeTimeOf(o);
    }
    assert features[..|features|] == features;
    return Ok((workplaces, freeTimePlaces));
  }
}

=== FILE: positions.dfy ===
/** src/models/position.py: a geocoordinate with an optional epoch-seconds timestamp. */
module Positions {
  import opened Wrappers

  /** Latitude and longitude are integers scaled by the polyline precision (1e-5 degrees). */
  datatype Position = Position(lat: int, lon: int, timestamp: Option<int>)

  /** `Position(latitude, longitude, time_point)`: the time point, when given, becomes the timestamp. */
  function MakePosition(latitude: int, longitude: int, timePoint: Option<int>): (p: Position)
    ensures p.lat == latitude && p.lon == longitude
    ensures p.timestamp.None? <==> timePoint.None?
    ensures timePoint.Some? ==> p.timestamp == Some(timePoint.value)
  {
    Position(latitude, longitude, timePoint)
  }

  /** The stitcher assigns `timestamp` after construction; nothing else changes. */
  function WithTimestamp(p: Position, t: int): (q: Position)
    ensures q.lat == p.lat && q.lon == p.lon && q.timestamp == Some(t)
  {
    p.(timestamp := Some(t))
  }

  function ToLatLon(p: Position): (r: (int, int))
  {
    (p.lat, p.lon)
  }

  function ToLonLat(p: Position): (r: (int, int))
  {
    (p.lon, p.lat)
  }

  /** `to_lon_lat` is `to_lat_lon` with its components swapped, and together they recover the coordinates. */
  lemma LonLatIsSwappedLatLon(p: Position)
    ensures ToLonLat(p) == (ToLatLon(p).1, ToLatLon(p).0)
    ensures ToLatLon(p).0 == p.lat && ToLatLon(p).1 == p.lon
  {
  }
}

=== FILE: random_time.dfy ===
/** src/lib/random_time.py: a random "HH:MM" start time inside a window of whole hours.
    The random minute offset is a parameter. */
module RandomTime {
  import opened Wrappers
  import opened Decimal

  /** The range `random.randint(0, total_minutes_in_timeframe)` draws from. */
  predicate ValidOffset(fromHour: int, toHour: int, offset: nat)
  {
    fromHour < toHour ==> offset <= (toHour - fromHour) * 60
  }

  /** `divmod` of the offset by 60, added to the first hour of the window. */
  function HourMinute(fromHour: int, offset: nat): (hm: (int, nat))
    ensures hm.0 * 60 + hm.1 == fromHour * 60 + offset
    ensures hm.1 < 60
  {
    var (hourOffset, minuteOffset) := DivMod(offset, 60);
    (fromHour + hourOffset, minuteOffset)
  }

  /** The drawn hour lies in the window; it is the last hour only at minute 0. */
  lemma HourWithinWindow(fromHour: int, toHour: int, offset: nat)
    requires fromHour < toHour && ValidOffset(fromHour, toHour, offset)
    ensures fromHour <= HourMinute(fromHour, offset).0 <= toHour
    ensures HourMinute(fromHour, offset).0 == toHour ==> HourMinute(fromHour, offset).1 == 0
  {
    var hm := HourMinute(fromHour, offset);
    assert (hm.0 - fromHour) * 60 + hm.1 == offset;
  }

  /** An hour or minute below 10 gets a leading "0"; larger ones are printed as they are. */
  function Pad(n: int): (s: string)
  {
    if n < 10 then "0" + IntToString(n) else IntToString(n)
  }

  lemma PadTwoDigits(n: int)
    requires 0 <= n <= 99
    ensures |Pad(n)| == 2 && AllDigits(Pad(n)) && ParseNat(Pad(n)) == n
  {
    var s := Pad(n);
    if n < 10 {
      assert s == ['0', DigitChar(n)];
      DigitValueOfChar(n);
    } else {
      assert NatToString(n) == NatToString(n / 10) + [DigitChar(n % 10)];
      assert s == [DigitChar(n / 10), DigitChar(n % 10)];
      DigitValueOfChar(n / 10);
      DigitValueOfChar(n % 10);
    }
    ParseTwoDigits(s);
  }

  function RandomTimeInTimeframe(fromHour: int, toHour: int, offset: nat): (r: Result<string>)
    ensures r.Ok? <==> fromHour < toHour
    ensures r == Err(InvalidTimeframe) <==> fromHour == toHour
    ensures r == Err(ValueError) <==> toHour < fromHour
  {
    if fromHour == toHour then Err(InvalidTimeframe)
    else if toHour < fromHour then Err(ValueError)  // randint(0, negative) raises
    else
      var (hour, minute) := HourMinute(fromHour, offset);
      Ok(Pad(hour) + ":" + Pad(minute))
  }

  /** For windows within hours 0..99 the text is "HH:MM", and reading HH and MM back gives
      the window start plus the drawn offset, in minutes. */
  lemma RandomTimeRoundTrip(fromHour: int, toHour: int, offset: nat)
    requires 0 <= fromHour < toHour <= 99 && ValidOffset(fromHour, toHour, offset)
    ensures var s := RandomTimeInTimeframe(fromHour, toHour, offset).value;
      && |s| == 5 && s[2] == ':' && AllDigits(s[..2]) && AllDigits(s[3..])
      && ParseNat(s[..2]) == HourMinute(fromHour, offset).0
      && ParseNat(s[3..]) == HourMinute(fromHour, offset).1
      && ParseNat(s[..2]) * 60 + ParseNat(s[3..]) == fromHour * 60 + offset
  {
    var hm := HourMinute(fromHour, offset);
    HourWithinWindow(fromHour, toHour, offset);
    PadTwoDigits(hm.0);
    PadTwoDigits(hm.1);
    var s := RandomTimeInTimeframe(fromHour, toHour, offset).value;
    assert s == Pad(hm.0) + ":" + Pad(hm.1);
    assert s[..2] == Pad(hm.0);
    assert s[3..] == Pad(hm.1);
  }

  /** The "%H:%M" part of `datetime.strptime`: two-digit hour 00..23, ':', two-digit minute 00..59;
      the result is minutes since midnight. */
  function ParseClock(s: string): (r: Option<nat>)
    ensures r.Some? ==> r.value < 24 * 60
  {
    if |s| == 5 && s[2] == ':' && AllDigits(s[..2]) && AllDigits(s[3..])
       && ParseNat(s[..2]) <= 23 && ParseNat(s[3..]) <= 59
    then Some(ParseNat(s[..2]) * 60 + ParseNat(s[3..]))
    else None
  }

  /** `strptime` applied to the outcome of the draw: an error passes through, text that is not a
      valid "HH:MM" raises `ValueError`. */
  function ReadDrawnText(drawn: Result<string>): (r: Result<nat>)
    ensures drawn.Err? ==> r == Err(drawn.error)
  {
    match drawn
    case Err(e) => Err(e)
    case Ok(text) =>
      match ParseClock(text)
      case None => Err(ValueError)
      case Some(minutes) => Ok(minutes)
  }

  /** The drawn start as a time of day in minutes, stated without text: the window must be
      non-empty and the drawn hour must be a clock hour. */
  function DrawnClockMinutes(fromHour: int, toHour: int, offset: nat): (r: Result<nat>)
    ensures r.Ok? ==> r.value == fromHour * 60 + offset && r.value < 24 * 60
    ensures fromHour == toHour ==> r == Err(InvalidTimeframe)
    ensures fromHour != toHour && r.Err? ==> r.error == ValueError
  {
    if fromHour == toHour then Err(InvalidTimeframe)
    else if toHour < fromHour then Err(ValueError)
    else
      var (hour, minute) := HourMinute(fromHour, offset);
      if 0 <= hour <= 23 then Ok(hour * 60 + minute) else Err(ValueError)
  }

  /** A negative hour or one of three or more digits is printed with at least three characters. */
  lemma PadLong(n: int)
    requires n < 0 || n > 99
    ensures |Pad(n)| >= 3
  {
    if n > 99 {
      assert NatToString(n) == NatToString(n / 10) + [DigitChar(n % 10)];
    }
  }

  /** "HH:MM" with a two-digit hour reads back as that hour and minute when the hour is a clock
      hour, and is refused otherwise. */
  lemma ReadBackTwoDigitHour(hour: int, minute: nat)
    requires 0 <= hour <= 99 && minute < 60
    ensures ParseClock(Pad(hour) + ":" + Pad(minute)) == if hour <= 23 then Some(hour * 60 + minute) else None
  {
    var text := Pad(hour) + ":" + Pad(minute);
    PadTwoDigits(hour);
    PadTwoDigits(minute);
    assert text[..2] == Pad(hour) && text[2] == ':' && text[3..] == Pad(minute);
  }

  /** A negative or three-digit hour makes the text too long to parse. */
  lemma ReadBackLongHour(hour: int, minute: nat)
    requires (hour < 0 || hour > 99) && minute < 60
    ensures ParseClock(Pad(hour) + ":" + Pad(minute)).None?
  {
    PadLong(hour);
    PadTwoDigits(minute);
  }

  /** Printing the drawn time and reading it back with `strptime` gives exactly the arithmetic
      time of day, including which draws fail. */
  lemma DrawnClockMinutesReadsText(fromHour: int, toHour: int, offset: nat)
    ensures DrawnClockMinutes(fromHour, toHour, offset) == ReadDrawnText(RandomTimeInTimeframe(fromHour, toHour, offset))
  {
    if fromHour < toHour {
      var (hour, minute) := HourMinute(fromHour, offset);
      if 0 <= hour <= 99 {
        ReadBackTwoDigitHour(hour, minute);
      } else {
        ReadBackLongHour(hour, minute);
      }
    }
  }

  /** A window ending by hour 23 yields the drawn minute of the day; a drawn hour of 24 or more
      is refused by the parser. */
  lemma StartTimeParses(fromHour: int, toHour: int, offset: nat)
    requires 0 <= fromHour < toHour && ValidOffset(fromHour, toHour, offset)
    ensures toHour <= 23 ==> DrawnClockMinutes(fromHour, toHour, offset) == Ok(fromHour * 60 + offset)
    ensures HourMinute(fromHour, offset).0 >= 24 ==> DrawnClockMinutes(fromHour, toHour, offset) == Err(ValueError)
  {
    HourWithinWindow(fromHour, toHour, offset);
  }
}

=== FILE: route_generator.dfy ===
/** src/route_generator.py, `generate_people`: one person per residential building, up to ten,
    each given the first workplace with spare capacity and the first two free-time places that are
    not that workplace. The shuffles are parameters: the order each list is in when it is read. */
module RouteGenerator {
  import opened Wrappers
  import opened Positions
  import opened Places
  import opened People

  const PeoplePerBuilding := 1
  const MaxPeople := 10
  const NumFreeTimePlacesPerPerson := 2

  /** The places of `places` that do not compare equal (`__eq__`) to the workplace, in order. */
  function OtherPlaces(places: seq<FreeTimePlace>, workplace: PlaceBase): (r: seq<FreeTimePlace>)
    ensures |r| <= |places|
    ensures forall p :: p in r ==> p in places && !SamePlace(p.base, workplace)
  {
    if |places| == 0 then []
    else
      var front := OtherPlaces(places[..|places| - 1], workplace);
      var last := places[|places| - 1];
      if SamePlace(last.base, workplace) then front else front + [last]
  }

  /** The kept places are exactly the offered places that are not the workplace. */
  lemma {:induction false} OtherPlacesMembers(places: seq<FreeTimePlace>, workplace: PlaceBase)
    ensures forall p :: p in OtherPlaces(places, workplace) ==> p in places && !SamePlace(p.base, workplace)
    ensures forall p :: p in places && !SamePlace(p.base, workplace) ==> p in OtherPlaces(places, workplace)
    decreases |places|
  {
    if |places| > 0 {
      var front := places[..|places| - 1];
      OtherPlacesMembers(front, workplace);
      assert places == front + [places[|places| - 1]];
    }
  }

  /** The free-time places a person is given: the first `n` places that are not the workplace. */
  function ChosenPlaces(places: seq<FreeTimePlace>, workplace: PlaceBase, n: nat): (r: seq<FreeTimePlace>)
  {
    var others := OtherPlaces(places, workplace);
    if |others| <= n then others else others[..n]
  }

  /** Filtering one more place adds it exactly when it is not the workplace. */
  lemma OtherPlacesStep(places: seq<FreeTimePlace>, workplace: PlaceBase, i: nat)
    requires i < |places|
    ensures OtherPlaces(places[..i + 1], workplace)
      == OtherPlaces(places[..i], workplace) + (if SamePlace(places[i].base, workplace) then [] else [places[i]])
  {
    assert places[..i + 1][..i] == places[..i];
  }

  /** Filtering a longer list extends the filtered shorter one. */
  lemma {:induction false} OtherPlacesOfPrefix(places: seq<FreeTimePlace>, workplace: PlaceBase, i: nat)
    requires i <= |places|
    ensures OtherPlaces(places[..i], workplace) <= OtherPlaces(places, workplace)
    decreases |places| - i
  {
    if i < |places| {
      OtherPlacesOfPrefix(places, workplace, i + 1);
      assert places[..i + 1][..i] == places[..i];
    } else {
      assert places[..i] == places;
    }
  }

  /** The chosen places: at most `n` of them, none equal to the workplace, each one of the offered
      places, in the order offered; fewer than `n` only when every other place was taken. */
  lemma ChosenPlacesProperties(places: seq<FreeTimePlace>, workplace: PlaceBase, n: nat)
    ensures |ChosenPlaces(places, workplace, n)| <= n
    ensures forall p :: p in ChosenPlaces(places, workplace, n) ==> p in places && !SamePlace(p.base, workplace)
    ensures ChosenPlaces(places, workplace, n) <= OtherPlaces(places, workplace)
    ensures |ChosenPlaces(places, workplace, n)| < n ==>
      forall p :: p in places && !SamePlace(p.base, workplace) ==> p in ChosenPlaces(places, workplace, n)
  {
    OtherPlacesMembers(places, workplace);
    var others := OtherPlaces(places, workplace);
    if |others| > n {
      forall p | p in others[..n]
        ensures p in others
      {
        var k :| 0 <= k < n && others[..n][k] == p;
        assert others[k] == p;
      }
    }
  }


  /** Once `n` places are kept, the next place that is not the workplace ends the choice. */
  lemma ChosenStopsAtLimit(places: seq<FreeTimePlace>, workplace: PlaceBase, i: nat)
    requires i < |places| && !SamePlace(places[i].base, workplace)
    requires |OtherPlaces(places[..i], workplace)| == NumFreeTimePlacesPerPerson
    ensures ChosenPlaces(places, workplace, NumFreeTimePlacesPerPerson) == OtherPlaces(places[..i], workplace)
  {
    OtherPlacesStep(places, workplace, i);
    OtherPlacesOfPrefix(places, workplace, i + 1);
    OtherPlacesOfPrefix(places, workplace, i);
    assert OtherPlaces(places[..i + 1], workplace)[..NumFreeTimePlacesPerPerson] == OtherPlaces(places[..i], workplace);
  }
  /** The inner loop choosing free-time places: skip places equal to the workplace, take the others
      until two are taken. */
  method ChooseFreeTimePlaces(places: seq<FreeTimePlace>, workplace: PlaceBase) returns (chosen: seq<FreeTimePlace>)
    ensures chosen == ChosenPlaces(places, workplace, NumFreeTimePlacesPerPerson)
  {
    chosen := [];
    var i := 0;
    while i < |places|
      invariant 0 <= i <= |places|
      invariant chosen == OtherPlaces(places[..i], workplace)
      invariant |chosen| <= NumFreeTimePlacesPerPerson
    {
      OtherPlacesStep(places, workplace, i);
      if !SamePlace(places[i].base, workplace) {
        if |chosen| < NumFreeTimePlacesPerPerson {
          chosen := chosen + [places[i]];
        } else {
          ChosenStopsAtLimit(places, workplace, i);
          return;
        }
      }
      i := i + 1;
    }
    assert places[..i] == places;
  }

  /** The workplace loop: the first workplace in `order` with spare capacity gets one more person.
      Returns its position in `order`, or nothing when every workplace is full. */
  method ChooseWorkplace(order: seq<Workplace>) returns (chosen: Option<nat>)
    modifies set w | w in order
    ensures chosen.None? ==>
      && (forall j :: 0 <= j < |order| ==> order[j].currentPeople >= order[j].maxWorkers)
      && (forall w :: w in order ==> w.currentPeople == old(w.currentPeople))
    ensures chosen.Some? ==>
      && chosen.value < |order|
      && old(order[chosen.value].currentPeople) < order[chosen.value].maxWorkers
      && (forall j :: 0 <= j < chosen.value ==> old(order[j].currentPeople) >= order[j].maxWorkers)
      && order[chosen.value].currentPeople == old(order[chosen.value].currentPeople) + 1
      && (forall w :: w in order && w != order[chosen.value] ==> w.currentPeople == old(w.currentPeople))
  {
    var j := 0;
    while j < |order|
      invariant 0 <= j <= |order|
      invariant forall k :: 0 <= k < j ==> order[k].currentPeople >= order[k].maxWorkers
      invariant forall w :: w in order ==> w.currentPeople == old(w.currentPeople)
    {
      if order[j].currentPeople < order[j].maxWorkers {
        order[j].currentPeople := order[j].currentPeople + 1;
        return Some(j);
      }
      j := j + 1;
    }
    return None;
  }

  /** How many of `people` work at `w`. */
  function Assigned(people: seq<Person>, w: Workplace): (n: nat)
    ensures n <= |people|
    ensures n == 0 <==> forall k :: 0 <= k < |people| ==> people[k].workplace != w
  {
    if |people| == 0 then 0
    else Assigned(people[..|people| - 1], w) + (if people[|people| - 1].workplace == w then 1 else 0)
  }

  lemma AssignedStep(people: seq<Person>, p: Person, w: Workplace)
    ensures Assigned(people + [p], w) == Assigned(people, w) + (if p.workplace == w then 1 else 0)
  {
    assert (people + [p])[..|people|] == people;
  }

  /** Assigned counts summed over a list of workplaces. */
  function AssignedSum(people: seq<Person>, ws: seq<Workplace>): nat
  {
    if |ws| == 0 then 0 else AssignedSum(people, ws[..|ws| - 1]) + Assigned(people, ws[|ws| - 1])
  }

  /** One more person adds one to the sum exactly when their workplace is listed once in `ws`. */
  lemma {:induction false} AssignedSumStep(people: seq<Person>, p: Person, ws: seq<Workplace>)
    requires forall i, j :: 0 <= i < j < |ws| ==> ws[i] != ws[j]
    ensures AssignedSum(people + [p], ws) == AssignedSum(people, ws) + (if p.workplace in ws then 1 else 0)
    decreases |ws|
  {
    var all := people + [p];
    assert all[..|all| - 1] == people;
    if |ws| > 0 {
      var front := ws[..|ws| - 1];
      AssignedSumStep(people, p, front);
      assert ws == front + [ws[|ws| - 1]];
    }
  }

  /** With distinct workplaces and everyone working at one of them, the counts add up to the
      number of people: each person is counted exactly once. */
  lemma {:induction false} AssignedSumIsCount(people: seq<Person>, ws: seq<Workplace>)
    requires forall i, j :: 0 <= i < j < |ws| ==> ws[i] != ws[j]
    requires forall k :: 0 <= k < |people| ==> people[k].workplace in ws
    ensures AssignedSum(people, ws) == |people|
    decreases |people|
  {
    if |people| == 0 {
      AssignedSumOfNobody(ws);
    } else {
      var front := people[..|people| - 1];
      AssignedSumIsCount(front, ws);
      AssignedSumStep(front, people[|people| - 1], ws);
      assert front + [people[|people| - 1]] == people;
    }
  }

  lemma {:induction false} AssignedSumOfNobody(ws: seq<Workplace>)
    ensures AssignedSum([], ws) == 0
    decreases |ws|
  {
    if |ws| > 0 {
      AssignedSumOfNobody(ws[..|ws| - 1]);
    }
  }

  /** A reordering has the same members. */
  lemma SameMembers<T>(a: seq<T>, b: seq<T>, x: T)
    requires multiset(a) == multiset(b)
    ensures x in a <==> x in b
  {
    assert x in a <==> x in multiset(a);
    assert x in b <==> x in multiset(b);
  }

  lemma PrefixOfAppended<T>(s: seq<T>, x: T, k: nat)
    requires k <= |s|
    ensures (s + [x])[..k] == s[..k]
  {
    assert (s + [x])[..k] == s[..k] by {
      assert forall i :: 0 <= i < k ==> (s + [x])[i] == s[i];
    }
  }

  /** `wp` is the first workplace of `order` with spare capacity, when `order[m]` holds `loads[m]`
      people: every workplace before it was full. */
  predicate FirstWithCapacity(order: seq<Workplace>, loads: seq<int>, wp: Workplace)
  {
    && |loads| == |order|
    && (exists j :: 0 <= j < |order| && order[j] == wp && loads[j] < wp.maxWorkers
         && forall m :: 0 <= m < j ==> loads[m] >= order[m].maxWorkers)
  }

  /** Person `k` got the first workplace of `workOrder(k)` with spare capacity, when `loads[k]` gives
      how many people each of those workplaces held just before. */
  predicate FirstOpenForEach(people: seq<Person>, loads: seq<seq<int>>, workOrder: nat -> seq<Workplace>)
  {
    && |loads| == |people|
    && forall k :: 0 <= k < |people| ==> FirstWithCapacity(workOrder(k), loads[k], people[k].workplace)
  }

  /** `loads[k][m]` is what workplace `workOrder(k)[m]` held before person `k` was placed: its
      `initial` count plus the people placed there earlier. */
  predicate LoadsBeforeEach(people: seq<Person>, loads: seq<seq<int>>, workOrder: nat -> seq<Workplace>,
                            initial: map<Workplace, int>)
  {
    forall k, m ::
      (0 <= k < |people| && k < |loads| && 0 <= m < |loads[k]| && m < |workOrder(k)| && workOrder(k)[m] in initial) ==>
      loads[k][m] == initial[workOrder(k)[m]] + Assigned(people[..k], workOrder(k)[m])
  }

  lemma FirstOpenForEachStep(people: seq<Person>, loads: seq<seq<int>>, workOrder: nat -> seq<Workplace>,
                             p: Person, l: seq<int>)
    requires FirstOpenForEach(people, loads, workOrder)
    requires FirstWithCapacity(workOrder(|people|), l, p.workplace)
    ensures FirstOpenForEach(people + [p], loads + [l], workOrder)
  {
    var people', loads' := people + [p], loads + [l];
    forall k | 0 <= k < |people'| ensures FirstWithCapacity(workOrder(k), loads'[k], people'[k].workplace) {
      if k < |people| {
        assert loads'[k] == loads[k] && people'[k] == people[k];
      }
    }
  }

  lemma LoadsBeforeEachStep(people: seq<Person>, loads: seq<seq<int>>, workOrder: nat -> seq<Workplace>,
                            initial: map<Workplace, int>, p: Person, l: seq<int>)
    requires |loads| == |people| && LoadsBeforeEach(people, loads, workOrder, initial)
    requires forall m :: 0 <= m < |l| && m < |workOrder(|people|)| && workOrder(|people|)[m] in initial ==>
      l[m] == initial[workOrder(|people|)[m]] + Assigned(people, workOrder(|people|)[m])
    ensures LoadsBeforeEach(people + [p], loads + [l], workOrder, initial)
  {
    var people', loads' := people + [p], loads + [l];
    forall k, m | 0 <= k < |people'| && k < |loads'| && 0 <= m < |loads'[k]| && m < |workOrder(k)|
      && workOrder(k)[m] in initial
      ensures loads'[k][m] == initial[workOrder(k)[m]] + Assigned(people'[..k], workOrder(k)[m])
    {
      PrefixOfAppended(people, p, k);
      if k < |people| {
        assert loads'[k] == loads[k];
      }
    }
  }

  /** Person `k` was made for the `k`-th building in shuffled order, with the shuffled free-time
      places `freeOrder(k)` and the workplace they were given. */
  ghost predicate MadeFor(p: Person, k: nat, homes: seq<Position>, workplaces: seq<Workplace>,
                          freeOrder: nat -> seq<FreeTimePlace>)
    reads p
  {
    && p.id == k
    && k / PeoplePerBuilding < |homes|
    && p.homeLocation == homes[k / PeoplePerBuilding]
    && p.workplace in workplaces
    && p.favoriteFreeTimePlaces == ChosenPlaces(freeOrder(k), p.workplace.base, NumFreeTimePlacesPerPerson)
    && p.pastRoutes == []
  }

  lemma MadeForStep(people: seq<Person>, p: Person, homes: seq<Position>, workplaces: seq<Workplace>,
                    freeOrder: nat -> seq<FreeTimePlace>)
    requires forall k :: 0 <= k < |people| ==> MadeFor(people[k], k, homes, workplaces, freeOrder)
    requires MadeFor(p, |people|, homes, workplaces, freeOrder)
    ensures forall k :: 0 <= k < |people| + 1 ==> MadeFor((people + [p])[k], k, homes, workplaces, freeOrder)
  {
    forall k | 0 <= k < |people| + 1 ensures MadeFor((people + [p])[k], k, homes, workplaces, freeOrder) {
      if k < |people| {
        assert (people + [p])[k] == people[k];
      }
    }
  }

  /** The body of the per-building loop: the first workplace of `order` with spare capacity takes
      one more worker, and the new person gets it and the first two other places of `freePlaces`.
      Nothing is made, and nothing changes, when every workplace is full. */
  method PlacePerson(personId: nat, home: Position, order: seq<Workplace>, workplaces: seq<Workplace>,
                     freePlaces: seq<FreeTimePlace>)
    returns (made: Option<Person>, ghost loads: seq<int>)
    requires multiset(order) == multiset(workplaces)
    modifies set w | w in workplaces
    ensures |loads| == |order| && forall m :: 0 <= m < |order| ==> loads[m] == old(order[m].currentPeople)
    ensures made.Some? ==> FirstWithCapacity(order, loads, made.value.workplace)
    ensures made.None? ==> forall w :: w in workplaces ==>
      w.currentPeople == old(w.currentPeople) >= w.maxWorkers
    ensures made.Some? ==>
      var p := made.value;
      var wp := p.workplace;
      && fresh(p)
      && p.id == personId && p.homeLocation == home && p.pastRoutes == []
      && wp in workplaces
      && old(wp.currentPeople) < wp.maxWorkers
      && wp.currentPeople == old(wp.currentPeople) + 1
      && (forall w :: w in workplaces && w != wp ==> w.currentPeople == old(w.currentPeople))
      && p.favoriteFreeTimePlaces == ChosenPlaces(freePlaces, wp.base, NumFreeTimePlacesPerPerson)
  {
    forall w | w in order ensures w in workplaces {
      SameMembers(order, workplaces, w);
    }
    loads := seq(|order|, m requires 0 <= m < |order| reads order => order[m].currentPeople);
    var chosen := ChooseWorkplace(order);
    if chosen.None? {
      forall w | w in workplaces ensures w.currentPeople == old(w.currentPeople) >= w.maxWorkers {
        SameMembers(order, workplaces, w);
        var j :| 0 <= j < |order| && order[j] == w;
      }
      return None, loads;
    }
    var workplace := order[chosen.value];
    SameMembers(order, workplaces, workplace);
    forall w | w in workplaces && w != workplace ensures w.currentPeople == old(w.currentPeople) {
      SameMembers(order, workplaces, w);
    }
    var favorites := ChooseFreeTimePlaces(freePlaces, workplace.base);
    var person := new Person(personId, home, workplace, favorites);
    assert FirstWithCapacity(order, loads, person.workplace) by {
      assert order[chosen.value] == workplace;
    }
    return Some(person), loads;
  }

  lemma MadePeopleAddUp(people: seq<Person>, homes: seq<Position>, workplaces: seq<Workplace>,
                        freeOrder: nat -> seq<FreeTimePlace>)
    requires forall i, j :: 0 <= i < j < |workplaces| ==> workplaces[i] != workplaces[j]
    requires forall k :: 0 <= k < |people| ==> MadeFor(people[k], k, homes, workplaces, freeOrder)
    ensures AssignedSum(people, workplaces) == |people|
  {
    AssignedSumIsCount(people, workplaces);
  }

  /** What holds after `people` were placed, starting from head counts `initial`: each workplace
      holds its initial count plus the people placed there, and only goes over capacity when nobody
      was placed there; person `k` was made for building `k` and got the first workplace of
      `workOrder(k)` with spare capacity, given the counts `loads[k]` just before. */
  ghost predicate Placed(people: seq<Person>, loads: seq<seq<int>>, initial: map<Workplace, int>,
                         homes: seq<Position>, workplaces: seq<Workplace>,
                         workOrder: nat -> seq<Workplace>, freeOrder: nat -> seq<FreeTimePlace>)
    reads set w | w in workplaces, set p | p in people
  {
    && (forall w :: w in workplaces ==> w in initial && w.currentPeople == initial[w] + Assigned(people, w))
    && (forall w :: w in workplaces && Assigned(people, w) > 0 ==> w.currentPeople <= w.maxWorkers)
    && (forall k :: 0 <= k < |people| ==> MadeFor(people[k], k, homes, workplaces, freeOrder))
    && FirstOpenForEach(people, loads, workOrder)
    && LoadsBeforeEach(people, loads, workOrder, initial)
  }

  /** One turn of the building loop: place the person for building `b`, or find every workplace
      full and change nothing. */
  method PlaceNextPerson(people: seq<Person>, ghost loads: seq<seq<int>>, ghost initial: map<Workplace, int>,
                         homes: seq<Position>, b: nat, workplaces: seq<Workplace>,
                         workOrder: nat -> seq<Workplace>, freeOrder: nat -> seq<FreeTimePlace>)
    returns (made: Option<Person>, ghost l: seq<int>)
    requires b < |homes| && |people| == b * PeoplePerBuilding
    requires multiset(workOrder(|people|)) == multiset(workplaces)
    requires Placed(people, loads, initial, homes, workplaces, workOrder, freeOrder)
    modifies set w | w in workplaces
    ensures made.None? ==> Placed(people, loads, initial, homes, workplaces, workOrder, freeOrder)
    ensures made.None? ==> forall w :: w in workplaces ==> w.currentPeople >= w.maxWorkers
    ensures made.Some? ==> fresh(made.value)
    ensures made.Some? ==> Placed(people + [made.value], loads + [l], initial, homes, workplaces, workOrder, freeOrder)
  {
    var personId := |people|;
    var order := workOrder(personId);
    forall w | w in order ensures w in workplaces {
      SameMembers(order, workplaces, w);
    }
    label Pre:
    made, l := PlacePerson(personId, homes[b], order, workplaces, freeOrder(personId));
    if made.None? {
      return;
    }
    var person := made.value;
    assert personId / PeoplePerBuilding == b;
    assert MadeFor(person, personId, homes, workplaces, freeOrder);
    forall m | 0 <= m < |l| && m < |order| && order[m] in initial
      ensures l[m] == initial[order[m]] + Assigned(people, order[m])
    {
      assert order[m] in workplaces;
      assert l[m] == old@Pre(order[m].currentPeople);
    }
    FirstOpenForEachStep(people, loads, workOrder, person, l);
    LoadsBeforeEachStep(people, loads, workOrder, initial, person, l);
    MadeForStep(people, person, homes, workplaces, freeOrder);
    forall w | w in workplaces
      ensures w.currentPeople == initial[w] + Assigned(people + [person], w)
      ensures Assigned(people + [person], w) > 0 ==> w.currentPeople <= w.maxWorkers
    {
      AssignedStep(people, person, w);
    }
  }

  /** `generate_people`. `homes` is the building list after its shuffle; `workOrder(k)` and
      `freeOrder(k)` are the workplace and free-time place lists after the shuffles made for
      person `k`, each a reordering of the original list. `initial` records the head counts on
      entry and `loads[k]` the counts person `k` was placed against. */
  method GeneratePeople(homes: seq<Position>, workplaces: seq<Workplace>, freePlaces: seq<FreeTimePlace>,
                        workOrder: nat -> seq<Workplace>, freeOrder: nat -> seq<FreeTimePlace>)
    returns (people: seq<Person>, ghost loads: seq<seq<int>>, ghost initial: map<Workplace, int>)
    requires forall i, j :: 0 <= i < j < |workplaces| ==> workplaces[i] != workplaces[j]
    requires forall k :: multiset(workOrder(k)) == multiset(workplaces)
    requires forall k :: multiset(freeOrder(k)) == multiset(freePlaces)
    modifies set w | w in workplaces
    ensures |people| <= MaxPeople && |people| <= |homes| * PeoplePerBuilding
    ensures forall k :: 0 <= k < |people| ==> fresh(people[k]) && MadeFor(people[k], k, homes, workplaces, freeOrder)
    ensures forall w :: w in workplaces ==> w in initial && initial[w] == old(w.currentPeople)
    ensures FirstOpenForEach(people, loads, workOrder) && LoadsBeforeEach(people, loads, workOrder, initial)
    ensures forall w :: w in workplaces ==> w.currentPeople == old(w.currentPeople) + Assigned(people, w)
    ensures forall w :: w in workplaces && Assigned(people, w) > 0 ==> w.currentPeople <= w.maxWorkers
    ensures |people| == MaxPeople || |people| == |homes| * PeoplePerBuilding
      || forall w :: w in workplaces ==> w.currentPeople >= w.maxWorkers
    ensures AssignedSum(people, workplaces) == |people|
  {
    people, loads := [], [];
    initial := map w | w in workplaces :: w.currentPeople;
    var b := 0;
    while b < |homes|
      invariant 0 <= b <= |homes|
      invariant |people| == b * PeoplePerBuilding <= MaxPeople
      invariant forall k :: 0 <= k < |people| ==> fresh(people[k])
      invariant forall w :: w in workplaces ==> w in initial && initial[w] == old(w.currentPeople)
      invariant Placed(people, loads, initial, homes, workplaces, workOrder, freeOrder)
    {
      if |people| == MaxPeople {
        break;
      }
      var made, l := PlaceNextPerson(people, loads, initial, homes, b, workplaces, workOrder, freeOrder);
      if made.None? {
        MadePeopleAddUp(people, homes, workplaces, freeOrder);
        return people, loads, initial;
      }
      ghost var before := people;
      people := people + [made.value];
      loads := loads + [l];
      forall k | 0 <= k < |people| ensures fresh(people[k]) {
        if k < |before| {
          assert people[k] == before[k];
        }
      }
      b := b + 1;
    }
    MadePeopleAddUp(people, homes, workplaces, freeOrder);
  }
}

=== FILE: routes.dfy ===
/** src/models/route.py: one person's trajectory for one day, an append-only list of positions. */
module Routes {
  import opened Wrappers
  import opened Positions

  /** `math.isclose` on decoded polyline coordinates: with a relative tolerance of 1e-9 and
      coordinates of at most 180 degrees, two multiples of 1e-5 are close exactly when equal. */
  predicate Close(a: int, b: int)
  {
    a == b
  }

  predicate RoughlyEqual(p: Position, q: Position)
  {
    Close(p.lat, q.lat) && Close(p.lon, q.lon)
  }

  /** `is_roughly_equal_to_last_waypoint` on the list of waypoints. */
  predicate RoughlyEqualToLast(ws: seq<Position>, p: Position)
    requires |ws| > 0
  {
    RoughlyEqual(p, ws[|ws| - 1])
  }

  /** Appending a position makes it the last waypoint, which it is roughly equal to,
      and a further copy of it would be rejected by the stitcher's check. */
  lemma AppendedIsRoughlyEqualToLast(ws: seq<Position>, p: Position, q: Position)
    requires q.lat == p.lat && q.lon == p.lon
    ensures RoughlyEqualToLast(ws + [p], q)
    ensures RoughlyEqualToLast(ws + [p], p)
  {
  }

  /** The dictionary `to_dict` builds; `person` is absent (None) until the owner adds it. */
  datatype RouteDict = RouteDict(coords: seq<seq<int>>, times: seq<Option<int>>, person: Option<int>)

  /** The dictionary `to_linestring` builds. */
  datatype LineString = LineString(kind: string, coordinates: seq<seq<int>>)

  /** What exporting a list of waypoints yields: parallel `[lat, lon]` pairs and timestamps. */
  function Export(ws: seq<Position>, person: Option<int>): (d: RouteDict)
  {
    RouteDict(seq(|ws|, i requires 0 <= i < |ws| => [ws[i].lat, ws[i].lon]),
              seq(|ws|, i requires 0 <= i < |ws| => ws[i].timestamp),
              person)
  }

  /** The export has one coordinate pair and one time per waypoint, in waypoint order. */
  lemma ExportIsParallel(ws: seq<Position>, person: Option<int>)
    ensures |Export(ws, person).coords| == |Export(ws, person).times| == |ws|
    ensures forall i :: 0 <= i < |ws| ==>
      Export(ws, person).coords[i] == [ws[i].lat, ws[i].lon] && Export(ws, person).times[i] == ws[i].timestamp
  {
  }

  class DailyRoute {
    var waypoints: seq<Position>

    constructor ()
      ensures waypoints == []
    {
      waypoints := [];
    }

    method AddWaypoint(p: Position)
      modifies this
      ensures waypoints == old(waypoints) + [p]
    {
      waypoints := waypoints + [p];
    }

    /** Fails (IndexError in Python) on an empty route, so callers must not ask then. */
    predicate IsRoughlyEqualToLastWaypoint(p: Position)
      reads this
      requires |waypoints| > 0
    {
      RoughlyEqualToLast(waypoints, p)
    }

    function GetWaypoints(): (r: seq<Position>)
      reads this
    {
      waypoints
    }

    function GetWaypointsAsLatLon(): (r: seq<(int, int)>)
      reads this
      ensures |r| == |waypoints|
      ensures forall i :: 0 <= i < |r| ==> r[i] == ToLatLon(waypoints[i])
    {
      seq(|waypoints|, i requires 0 <= i < |waypoints| reads this => ToLatLon(waypoints[i]))
    }

    function GetWaypointsAsLonLat(): (r: seq<(int, int)>)
      reads this
      ensures |r| == |waypoints|
      ensures forall i :: 0 <= i < |r| ==> r[i] == ToLonLat(waypoints[i])
    {
      seq(|waypoints|, i requires 0 <= i < |waypoints| reads this => ToLonLat(waypoints[i]))
    }

    /** The two tuple views list the same waypoints, each pair swapped. */
    lemma LatLonAndLonLatAreSwapped()
      ensures |GetWaypointsAsLatLon()| == |GetWaypointsAsLonLat()|
      ensures forall i :: 0 <= i < |waypoints| ==>
        GetWaypointsAsLonLat()[i] == (GetWaypointsAsLatLon()[i].1, GetWaypointsAsLatLon()[i].0)
    {
    }

    method ToDict() returns (d: RouteDict)
      ensures d == Export(waypoints, None)
    {
      var coords: seq<seq<int>> := [];
      var times: seq<Option<int>> := [];
      var i := 0;
      while i < |waypoints|
        invariant 0 <= i <= |waypoints|
        invariant coords == Export(waypoints[..i], None).coords
        invariant times == Export(waypoints[..i], None).times
      {
        var position := waypoints[i];
        coords := coords + [[position.lat, position.lon]];
        times := times + [position.timestamp];
        i := i + 1;
      }
      assert waypoints[..i] == waypoints;
      d := RouteDict(coords, times, None);
    }

    method ToLinestring() returns (l: LineString)
      ensures l.kind == "LineString"
      ensures l.coordinates == Export(waypoints, None).coords
    {
      var coordinates: seq<seq<int>> := [];
      var i := 0;
      while i < |waypoints|
        invariant 0 <= i <= |waypoints|
        invariant coordinates == Export(waypoints[..i], None).coords
      {
        coordinates := coordinates + [[waypoints[i].lat, waypoints[i].lon]];
        i := i + 1;
      }
      assert waypoints[..i] == waypoints;
      l := LineString("LineString", coordinates);
    }
  }
}

=== FILE: routing_service.dfy ===
/** The routing service as the stitcher sees it (`calculate_directions` in
    src/lib/generating_routes.py). The service itself is an oracle parameter: a function from a
    travel profile and an ordered list of coordinates to the first route of its answer, with the
    polyline geometry already decoded. */
module RoutingService {

  /** A decoded polyline vertex, in the service's [longitude, latitude] order. */
  datatype LonLat = LonLat(lon: int, lat: int)

  /** One step of a segment: its `way_points` index span into the decoded geometry and its duration in seconds. */
  datatype Step = Step(fromIdx: nat, toIdx: nat, duration: int)

  /** The first route of a directions answer: decoded geometry, one list of steps per leg
      (`segments`), and whether the route carried a `summary`. */
  datatype Directions = Directions(geometry: seq<LonLat>, segments: seq<seq<Step>>, hasSummary: bool)

  datatype Profile = CyclingRegular | DrivingCar

  /** Every step of every route the service returns takes a non-negative number of seconds. */
  ghost predicate NonNegativeDurations(router: Router)
  {
    forall p, cs, i, j :: 0 <= i < |router(p, cs).segments| && 0 <= j < |router(p, cs).segments[i]| ==>
      router(p, cs).segments[i][j].duration >= 0
  }

  /** The service, queried with preference "fastest" and units of metres. */
  type Router = (Profile, seq<LonLat>) -> Directions

  function ProfileFor(useCyclingProfile: bool): (p: Profile)
    ensures p == CyclingRegular <==> useCyclingProfile
  {
    if useCyclingProfile then CyclingRegular else DrivingCar
  }

  function CalculateDirections(router: Router, coords: seq<LonLat>, useCyclingProfile: bool): Directions
  {
    router(ProfileFor(useCyclingProfile), coords)
  }
}

=== FILE: stitch_properties.dfy ===
/** What the refinement loops of src/lib/generating_routes.py guarantee, proved on the fold
    functions of StitchSpec. */
module StitchProperties {
  import opened Wrappers
  import opened Positions
  import opened Routes
  import opened RoutingService
  import opened StitchSpec

  /** Every waypoint is stamped, at or after `start`. */
  predicate StampedFrom(ws: seq<Position>, start: int)
  {
    forall i :: 0 <= i < |ws| ==> ws[i].timestamp.Some? && ws[i].timestamp.value >= start
  }

  /** Both positions are stamped, the second no earlier than the first. */
  predicate StampedInOrder(p: Position, q: Position)
  {
    p.timestamp.Some? && q.timestamp.Some? && p.timestamp.value <= q.timestamp.value
  }

  /** Consecutive timestamps never go backwards. */
  predicate NonDecreasingTimes(ws: seq<Position>)
  {
    forall i :: 0 <= i < |ws| - 1 ==> StampedInOrder(ws[i], ws[i + 1])
  }

  /** No waypoint is roughly equal to the one before it. */
  predicate NoRoughRepeats(ws: seq<Position>)
  {
    forall i :: 0 <= i < |ws| - 1 ==> !RoughlyEqual(ws[i], ws[i + 1])
  }

  /** The invariant of the stitching loops: a non-empty route that starts at `first`, is stamped
      from `start` on, is monotone in time, has no consecutive near-duplicates, and whose last
      stamp does not exceed the running clock. */
  predicate PathInv(ws: seq<Position>, clock: int, first: Position, start: int)
  {
    && |ws| > 0
    && ws[0] == first
    && StampedFrom(ws, start)
    && NonDecreasingTimes(ws)
    && NoRoughRepeats(ws)
    && ws[|ws| - 1].timestamp.value <= clock
  }

  // ---------------------------------------------------------------------------------------------
  // The effect of a single sub-step

  /** A sub-step end point is either dropped, leaving route and clock alone, or appended with the
      clock advanced by the step's duration and the new point stamped with the advanced clock. */
  lemma AppendSubStepEffect(w: seq<Position>, clock: int, geom: seq<LonLat>, s: Step)
    requires AppendSubStep(w, clock, geom, s).Ok?
    ensures var p := AppendSubStep(w, clock, geom, s).value;
      var e := SubStepEndpoint(geom, s);
      || (RoughlyEqualToLast(w, e) && p == (w, clock))
      || (&& !RoughlyEqualToLast(w, e)
          && p.1 == clock + s.duration
          && |p.0| == |w| + 1 && p.0[..|w|] == w
          && p.0[|w|].lat == geom[s.toIdx].lat && p.0[|w|].lon == geom[s.toIdx].lon
          && p.0[|w|].timestamp == Some(p.1))
  {
    var e := SubStepEndpoint(geom, s);
    if !RoughlyEqualToLast(w, e) {
      var p := AppendSubStep(w, clock, geom, s).value;
      assert p.0 == w + [WithTimestamp(e, clock + s.duration)];
      assert p.0[..|w|] == w;
    }
  }

  /** Over a whole sub-route the route only grows at its end, the clock changes only when some
      point was appended, and it never goes back when no step has a negative duration. */
  lemma {:induction false} AppendSubStepsOnlyAppends(w: seq<Position>, clock: int, geom: seq<LonLat>, steps: seq<Step>)
    requires AppendSubSteps(w, clock, geom, steps).Ok?
    ensures var p := AppendSubSteps(w, clock, geom, steps).value;
      && |p.0| >= |w| && p.0[..|w|] == w
      && (|p.0| == |w| ==> p.1 == clock)
      && ((forall j :: 0 <= j < |steps| ==> steps[j].duration >= 0) ==> p.1 >= clock)
    decreases |steps|
  {
    if |steps| > 0 {
      var init := steps[..|steps| - 1];
      AppendSubStepsOnlyAppends(w, clock, geom, init);
      var q := AppendSubSteps(w, clock, geom, init).value;
      AppendSubStepEffect(q.0, q.1, geom, steps[|steps| - 1]);
      var p := AppendSubSteps(w, clock, geom, steps).value;
      assert p.0[..|q.0|] == q.0;
      assert p.0[..|w|] == q.0[..|w|];
    }
  }

  // ---------------------------------------------------------------------------------------------
  // The index pointer

  /** A zero-length coarse step changes nothing and issues no query. */
  lemma ZeroLengthStepIsSkipped(st: Walk, step: Step, geom: seq<LonLat>, router: Router)
    requires step.fromIdx == step.toIdx
    ensures VisitStep(st, step, geom, router) == Ok(st)
  {
  }

  /** The previously accepted index itself is skipped without a query. */
  lemma PreviousIndexIsSkipped(st: Walk, geom: seq<LonLat>, router: Router)
    ensures VisitIndex(st, st.prev, geom, router) == Ok(st)
  {
  }

  /** A sub-route without a summary is skipped without error: no waypoint is appended, the clock
      is unchanged, and the accepted index stays where it was. */
  lemma DegenerateSubRouteIsSkipped(st: Walk, cur: nat, geom: seq<LonLat>, router: Router)
    requires cur != st.prev && cur < |geom| && st.prev < |geom|
    requires var sub := CalculateDirections(router, [geom[st.prev], geom[cur]], false);
      |sub.segments| > 0 && !sub.hasSummary
    ensures VisitIndex(st, cur, geom, router) == Ok(st)
  {
  }

  /** A sub-route with a summary makes the current index the accepted one, and the route so far
      is kept as a prefix; the clock does not go back unless the service reports a negative duration. */
  lemma AcceptedIndexAdvances(st: Walk, cur: nat, geom: seq<LonLat>, router: Router)
    requires cur != st.prev && cur < |geom| && st.prev < |geom|
    requires CalculateDirections(router, [geom[st.prev], geom[cur]], false).hasSummary
    requires VisitIndex(st, cur, geom, router).Ok?
    ensures var s := VisitIndex(st, cur, geom, router).value;
      s.prev == cur && |s.waypoints| >= |st.waypoints| && s.waypoints[..|st.waypoints|] == st.waypoints
      && (NonNegativeDurations(router) ==> s.clock >= st.clock)
  {
    var sub := CalculateDirections(router, [geom[st.prev], geom[cur]], false);
    AppendSubStepsOnlyAppends(st.waypoints, st.clock, sub.geometry, sub.segments[0]);
  }

  /** After visiting the indices `lo .. hi - 1`, the accepted index is the one before, or one of them. */
  lemma {:induction false} VisitRangeAcceptsWithin(st: Walk, lo: nat, hi: nat, geom: seq<LonLat>, router: Router)
    requires VisitRange(st, lo, hi, geom, router).Ok?
    ensures var s := VisitRange(st, lo, hi, geom, router).value;
      s.prev == st.prev || lo <= s.prev < hi
    decreases hi
  {
    if hi > lo {
      VisitRangeAcceptsWithin(st, lo, hi - 1, geom, router);
    }
  }

  // ---------------------------------------------------------------------------------------------
  // The route invariant

  lemma AppendSubStepKeepsInv(w: seq<Position>, clock: int, geom: seq<LonLat>, s: Step, first: Position, start: int)
    requires s.duration >= 0
    requires PathInv(w, clock, first, start)
    requires AppendSubStep(w, clock, geom, s).Ok?
    ensures var p := AppendSubStep(w, clock, geom, s).value;
      PathInv(p.0, p.1, first, start) && p.1 >= clock
  {
    AppendSubStepEffect(w, clock, geom, s);
  }

  lemma {:induction false} AppendSubStepsKeepsInv(w: seq<Position>, clock: int, geom: seq<LonLat>, steps: seq<Step>,
                                                 first: Position, start: int)
    requires forall j :: 0 <= j < |steps| ==> steps[j].duration >= 0
    requires PathInv(w, clock, first, start)
    requires AppendSubSteps(w, clock, geom, steps).Ok?
    ensures var p := AppendSubSteps(w, clock, geom, steps).value;
      PathInv(p.0, p.1, first, start) && p.1 >= clock
    decreases |steps|
  {
    if |steps| > 0 {
      var init := steps[..|steps| - 1];
      AppendSubStepsKeepsInv(w, clock, geom, init, first, start);
      var q := AppendSubSteps(w, clock, geom, init).value;
      AppendSubStepKeepsInv(q.0, q.1, geom, steps[|steps| - 1], first, start);
    }
  }

  lemma VisitIndexKeepsInv(st: Walk, cur: nat, geom: seq<LonLat>, router: Router, first: Position, start: int)
    requires NonNegativeDurations(router)
    requires PathInv(st.waypoints, st.clock, first, start)
    requires VisitIndex(st, cur, geom, router).Ok?
    ensures var s := VisitIndex(st, cur, geom, router).value;
      PathInv(s.waypoints, s.clock, first, start) && s.clock >= st.clock
  {
    if cur != st.prev && cur < |geom| && st.prev < |geom| {
      var sub := CalculateDirections(router, [geom[st.prev], geom[cur]], false);
      if |sub.segments| > 0 && sub.hasSummary {
        AppendSubStepsKeepsInv(st.waypoints, st.clock, sub.geometry, sub.segments[0], first, start);
      }
    }
  }

  lemma {:induction false} VisitRangeKeepsInv(st: Walk, lo: nat, hi: nat, geom: seq<LonLat>, router: Router,
                                              first: Position, start: int)
    requires NonNegativeDurations(router)
    requires PathInv(st.waypoints, st.clock, first, start)
    requires VisitRange(st, lo, hi, geom, router).Ok?
    ensures var s := VisitRange(st, lo, hi, geom, router).value;
      PathInv(s.waypoints, s.clock, first, start) && s.clock >= st.clock
    decreases hi
  {
    if hi > lo {
      VisitRangeKeepsInv(st, lo, hi - 1, geom, router, first, start);
      var s := VisitRange(st, lo, hi - 1, geom, router).value;
      VisitIndexKeepsInv(s, hi - 1, geom, router, first, start);
    }
  }

  lemma {:induction false} VisitStepsKeepsInv(st: Walk, steps: seq<Step>, geom: seq<LonLat>, router: Router,
                                              first: Position, start: int)
    requires NonNegativeDurations(router)
    requires PathInv(st.waypoints, st.clock, first, start)
    requires VisitSteps(st, steps, geom, router).Ok?
    ensures var s := VisitSteps(st, steps, geom, router).value;
      PathInv(s.waypoints, s.clock, first, start) && s.clock >= st.clock
    decreases |steps|
  {
    if |steps| > 0 {
      var init := steps[..|steps| - 1];
      VisitStepsKeepsInv(st, init, geom, router, first, start);
      var s := VisitSteps(st, init, geom, router).value;
      var step := steps[|steps| - 1];
      if step.fromIdx != step.toIdx {
        VisitRangeKeepsInv(s, step.fromIdx, step.toIdx + 1, geom, router, first, start);
      }
    }
  }

  /** With non-negative stays and step durations the invariant holds after every leg, and the clock
      never goes back. */
  lemma {:induction false} VisitLegsKeepsInv(st: Walk, coarse: Directions, stays: seq<int>, numLegs: nat, k: nat,
                                             router: Router, first: Position, start: int)
    requires |stays| + 1 >= numLegs
    requires forall i :: 0 <= i < |stays| ==> stays[i] >= 0
    requires NonNegativeDurations(router)
    requires PathInv(st.waypoints, st.clock, first, start)
    requires VisitLegs(st, coarse, stays, numLegs, k, router).Ok?
    ensures var s := VisitLegs(st, coarse, stays, numLegs, k, router).value;
      PathInv(s.waypoints, s.clock, first, start) && s.clock >= st.clock
    decreases k
  {
    if k > 0 {
      VisitLegsKeepsInv(st, coarse, stays, numLegs, k - 1, router, first, start);
      var s := VisitLegs(st, coarse, stays, numLegs, k - 1, router).value;
      VisitStepsKeepsInv(s, coarse.segments[k - 1], coarse.geometry, router, first, start);
    }
  }

  // ---------------------------------------------------------------------------------------------
  // Once a loop has failed, the whole fold fails with the same error: these let an early exit
  // stand for the fold.

  lemma {:induction false} AppendSubStepsErrSticky(w: seq<Position>, clock: int, geom: seq<LonLat>, steps: seq<Step>, i: nat)
    requires i <= |steps| && AppendSubSteps(w, clock, geom, steps[..i]).Err?
    ensures AppendSubSteps(w, clock, geom, steps) == AppendSubSteps(w, clock, geom, steps[..i])
    decreases |steps|
  {
    if i < |steps| {
      var init := steps[..|steps| - 1];
      assert init[..i] == steps[..i];
      AppendSubStepsErrSticky(w, clock, geom, init, i);
    } else {
      assert steps[..i] == steps;
    }
  }

  lemma {:induction false} VisitRangeErrSticky(st: Walk, lo: nat, i: nat, hi: nat, geom: seq<LonLat>, router: Router)
    requires i <= hi && VisitRange(st, lo, i, geom, router).Err?
    ensures VisitRange(st, lo, hi, geom, router) == VisitRange(st, lo, i, geom, router)
    decreases hi
  {
    if i < hi {
      VisitRangeErrSticky(st, lo, i, hi - 1, geom, router);
    }
  }

  lemma {:induction false} VisitStepsErrSticky(st: Walk, steps: seq<Step>, i: nat, geom: seq<LonLat>, router: Router)
    requires i <= |steps| && VisitSteps(st, steps[..i], geom, router).Err?
    ensures VisitSteps(st, steps, geom, router) == VisitSteps(st, steps[..i], geom, router)
    decreases |steps|
  {
    if i < |steps| {
      var init := steps[..|steps| - 1];
      assert init[..i] == steps[..i];
      VisitStepsErrSticky(st, init, i, geom, router);
    } else {
      assert steps[..i] == steps;
    }
  }

  lemma {:induction false} VisitLegsErrSticky(st: Walk, coarse: Directions, stays: seq<int>, numLegs: nat, i: nat, k: nat, router: Router)
    requires |stays| + 1 >= numLegs
    requires i <= k && VisitLegs(st, coarse, stays, numLegs, i, router).Err?
    ensures VisitLegs(st, coarse, stays, numLegs, k, router) == VisitLegs(st, coarse, stays, numLegs, i, router)
    decreases k
  {
    if i < k {
      VisitLegsErrSticky(st, coarse, stays, numLegs, i, k - 1, router);
    }
  }
}

=== FILE: stitch_spec.dfy ===
/** The refinement loops of `generate_daily_route_for_person` (src/lib/generating_routes.py),
    written as functions over an explicit state: the waypoints so far, the previously accepted
    index into the coarse geometry, and the running clock. Each loop is a left fold over a
    prefix, so that a loop that has done `i` iterations is in the state the fold gives for `i`. */
module StitchSpec {
  import opened Wrappers
  import opened Positions
  import opened Routes
  import opened RoutingService

  /** The state the nested loops update: waypoints, `previous_waypoint_index`, `current_time_for_person`. */
  datatype Walk = Walk(waypoints: seq<Position>, prev: nat, clock: int)

  /** A sub-step's end point: the decoded [lon, lat] vertex swapped into `Position(lat, lon)`. */
  function SubStepEndpoint(geom: seq<LonLat>, s: Step): (p: Position)
    requires s.toIdx < |geom|
    ensures p.lat == geom[s.toIdx].lat && p.lon == geom[s.toIdx].lon && p.timestamp.None?
  {
    MakePosition(geom[s.toIdx].lat, geom[s.toIdx].lon, None)
  }

  /** One iteration of the loop over a sub-route's steps. */
  function AppendSubStep(w: seq<Position>, clock: int, geom: seq<LonLat>, s: Step): (r: Result<(seq<Position>, int)>)
    ensures r.Err? <==> s.toIdx >= |geom| || |w| == 0
  {
    if s.toIdx >= |geom| || |w| == 0 then Err(IndexError)
    else
      var pos := SubStepEndpoint(geom, s);
      if RoughlyEqualToLast(w, pos) then Ok((w, clock))
      else
        var advanced := clock + s.duration;
        Ok((w + [WithTimestamp(pos, advanced)], advanced))
  }

  /** The loop over a sub-route's steps, after the first `|steps|` of them. */
  function AppendSubSteps(w: seq<Position>, clock: int, geom: seq<LonLat>, steps: seq<Step>): Result<(seq<Position>, int)>
    decreases |steps|
  {
    if |steps| == 0 then Ok((w, clock))
    else match AppendSubSteps(w, clock, geom, steps[..|steps| - 1])
      case Err(e) => Err(e)
      case Ok(p) => AppendSubStep(p.0, p.1, geom, steps[|steps| - 1])
  }

  /** The body of the loop over the indices of a coarse step: query the service between the
      previously accepted vertex and this one, skip a degenerate answer, else append its steps. */
  function VisitIndex(st: Walk, cur: nat, geom: seq<LonLat>, router: Router): Result<Walk>
  {
    if cur == st.prev then Ok(st)
    else if cur >= |geom| || st.prev >= |geom| then Err(IndexError)
    else
      var sub := CalculateDirections(router, [geom[st.prev], geom[cur]], false);
      if |sub.segments| == 0 then Err(IndexError)
      else if !sub.hasSummary then Ok(st)
      else match AppendSubSteps(st.waypoints, st.clock, sub.geometry, sub.segments[0])
        case Err(e) => Err(e)
        case Ok(p) => Ok(Walk(p.0, cur, p.1))
  }

  /** The loop over the indices `lo .. hi - 1`, in ascending order. */
  function VisitRange(st: Walk, lo: nat, hi: nat, geom: seq<LonLat>, router: Router): Result<Walk>
    decreases hi
  {
    if hi <= lo then Ok(st)
    else match VisitRange(st, lo, hi - 1, geom, router)
      case Err(e) => Err(e)
      case Ok(s) => VisitIndex(s, hi - 1, geom, router)
  }

  /** One coarse step: a zero-length step is skipped, otherwise its span is visited inclusively. */
  function VisitStep(st: Walk, step: Step, geom: seq<LonLat>, router: Router): Result<Walk>
  {
    if step.fromIdx == step.toIdx then Ok(st)
    else VisitRange(st, step.fromIdx, step.toIdx + 1, geom, router)
  }

  /** The loop over the steps of one coarse segment. */
  function VisitSteps(st: Walk, steps: seq<Step>, geom: seq<LonLat>, router: Router): Result<Walk>
    decreases |steps|
  {
    if |steps| == 0 then Ok(st)
    else match VisitSteps(st, steps[..|steps| - 1], geom, router)
      case Err(e) => Err(e)
      case Ok(s) => VisitStep(s, steps[|steps| - 1], geom, router)
  }

  /** After leg `i`, the stay at the next anchor is added, except after the last leg. */
  function AddStay(st: Walk, stays: seq<int>, i: nat, numLegs: nat): Walk
    requires |stays| + 1 >= numLegs
  {
    if i < numLegs - 1 then st.(clock := st.clock + stays[i]) else st
  }

  /** The loop over the first `k` of `numLegs` legs of the coarse route. */
  function VisitLegs(st: Walk, coarse: Directions, stays: seq<int>, numLegs: nat, k: nat, router: Router): Result<Walk>
    requires |stays| + 1 >= numLegs
    decreases k
  {
    if k == 0 then Ok(st)
    else match VisitLegs(st, coarse, stays, numLegs, k - 1, router)
      case Err(e) => Err(e)
      case Ok(s) => VisitLeg(s, coarse, stays, numLegs, k - 1, router)
  }

  /** Leg `i`: the steps of coarse segment `i`, then the stay that follows it. */
  function VisitLeg(st: Walk, coarse: Directions, stays: seq<int>, numLegs: nat, i: nat, router: Router): Result<Walk>
    requires |stays| + 1 >= numLegs
  {
    if i >= |coarse.segments| then Err(IndexError)
    else match VisitSteps(st, coarse.segments[i], coarse.geometry, router)
      case Err(e) => Err(e)
      case Ok(s) => Ok(AddStay(s, stays, i, numLegs))
  }
}

=== FILE: wrappers.dfy ===
/** Optional values, results, and the error kinds the Python code can raise. */
module Wrappers {

  datatype Option<+T> = None | Some(value: T)

  /** The kinds of exception the modelled code raises on bad input. */
  datatype Error =
    | IndexError        // list index out of range, `random.choice` on an empty list
    | KeyError          // missing dictionary key
    | ValueError        // `int()` or `strptime` on a malformed string, `randint` on an empty range
    | InvalidTimeframe  // the explicit raise in get_random_time_in_timeframe

  datatype Result<+T> = Ok(value: T) | Err(error: Error)

  /** Python's `divmod` on a non-negative dividend and positive divisor. */
  function DivMod(n: nat, d: nat): (r: (nat, nat))
    requires d > 0
    ensures r.0 * d + r.1 == n && r.1 < d
  {
    (n / d, n % d)
  }
}
